=== FILE: README.md ===
# Off-chain incremental Merkle tree, modelled in Dafny

This project models the off-chain incremental Merkle tree of
`app/utils/merkletree.js`. That is the `MerkleTree` class and the
`createMerkleTree` factory that returns it. The tree has a fixed depth. Its
root is kept up to date in O(depth) per call by three tables, one entry per level:

- `zeros`, the padding value of each level;
- `filledSubtrees`, the last left subtree closed at each level;
- `filledPaths`, a sparse cache of node values.

`insert` claims the next slot. `getPath` reads a leaf's sibling witness from
the cache. `update` runs `_update` with that witness. It first folds the
stored leaf and throws unless the fold reproduces the root. Only then does it
fold the new leaf and write.

The model is functional. A tree is an immutable record, and every operation
is a pure function. An operation that throws in the source returns `Err`.
Pairwise hashing is a parameter `hash: PairHash`, and every property of the
tree holds for any pair hash, so none of them needs collision resistance.
The MiMC-7 permutation `mimc` is left abstract. Two pair hashes are built on
it. `MimcPairAsWritten(mimc)` is `hashLeftRight` exactly as written, which
reduces its operands by the rounded modulus of line 45. `MimcPair(mimc)` is
the corrected `hashLeftRight`, which reduces by the prime `p`.

Modules, in dependency order:

- `Field` (field.dfy): BigInt remainder, `hashLeftRight` as written and as
  intended, and the lemmas that tell them apart.
- `Reference` (reference.dfy): the reference semantics. `Root(hash, leafs,
  zeroValue, depth)` is the root of `leafs` padded with `zeroValue` to
  `2^depth` leaves and hashed bottom-up. It also holds the fold of a leaf
  with a witness, and the index arithmetic (`Ancestor(j, i)` is `curIdx`
  after `i` halvings).
- `MerkleTree` (merkle_tree.dfy): the tree record and the source's
  operations.
- `Invariants` (invariants.dfy): what the caches mean, and the proofs that
  construction, `insert` and `update` keep them meaning it.
- `History` (history.dfy): histories of calls and their reference meaning.
- `Findings` (findings.dfy): the stale-subtree defect and its correction.
- `Scenario` (scenario.dfy): the script the module runs when loaded.

Points where the code's behaviour is easy to mistake:

- `insert` has no capacity check, so `Insert` is total and only the
  invariant lemmas require `nextIndex < 2^depth`.
- An out-of-range `update` lets `undefined` reach BigInt `%` in
  `hashLeftRight`, which throws a `TypeError`. The model returns
  `Err(UndefinedOperand)` there, and also when the constructor is given depth 0.
- `_update` leaves `filledSubtrees` stale (see Findings).
- Line 45 reduces the operands modulo a rounded copy of `p` (see Findings).

## Model

| member | source | states |
|---|---|---|
| Field.BigIntRem | app/utils/merkletree.js:48 | BigInt `%` keeps the dividend's sign, stays strictly inside `(-m, m)` and differs from the dividend by a multiple of `m`; these three facts leave only the remainder truncated toward zero |
| Field.HashLeftRightAsWritten | app/utils/merkletree.js:44-55 | `hashLeftRight` as written: for operands below the rounded modulus `k`, the reductions are the identity and the result is `mimc(mimc(left, 0) + right, 0)` |
| Field.MimcPairAsWritten | app/utils/merkletree.js:44-55 | the pair hash built from `hashLeftRight` as written sees its operands only through their BigInt remainders modulo `k`, and absorbs operands below `k` unchanged |
| Field.MimcPair | app/utils/merkletree.js:44-55 | the corrected pair hash, reducing by `p`: it sees its operands only through their BigInt remainders modulo `p`, and absorbs field elements unchanged |
| Field.ModulusLiteralIsRounded | app/utils/merkletree.js:45 | the modulus `hashLeftRight` reduces by is a double: a 53-bit significand times `2^201`, strictly below `p` and within half a unit in the last place of it, so it is what the digits of `p` round to as a Number |
| Field.AsWrittenConflatesModulus | app/utils/merkletree.js:45-52 | as written, the field element `k` and `0` hash alike in either operand position, for every permutation |
| Field.AsWrittenCollidesAcrossField | app/utils/merkletree.js:45-52 | as written, every field element `a` below `p - k` and the distinct field element `a + k` hash alike in either operand position, for every permutation |
| Field.ModulusSeparatesUnderIdentity | app/utils/merkletree.js:45-52 | under the identity permutation the intended hash maps `(k, 0)` and `(0, 0)` to different values, while the written one maps them to the same value |
| Field.FieldElementsAbsorbedUnreduced | app/utils/merkletree.js:44-55 | with `p` as modulus, operands in `[0, p)` enter the permutation unchanged: the hash is `mimc(mimc(a, 0) + b, 0)` |
| Field.HashReducesOperands | app/utils/merkletree.js:48-51 | the corrected hash, which reduces by `p`, sees only its operands' remainders modulo `p`: reducing both operands beforehand changes nothing |
| Field.HashRespectsCongruence | app/utils/merkletree.js:44-55 | for the corrected hash, non-negative operands congruent modulo `p` hash alike, so `hashLeftRight(a, b) == hashLeftRight(a % p, b % p)` once the modulus is `p` |
| Reference.AncestorIsShift | app/utils/merkletree.js:84 | halving the index `i` times with `parseInt(curIdx / 2)` yields `j / 2^i`, the index of leaf `j`'s ancestor at level `i` |
| Reference.EmptyRoot | app/utils/merkletree.js:33-36 | the reference root of a tree with no leaves is the padding value of the top level |
| Reference.FoldFromLeaf | app/utils/merkletree.js:115-126 | folding leaf `j` with the true siblings of its ancestors by the even-left / odd-right rule yields the reference root |
| MerkleTree.ZeroLevels | app/utils/merkletree.js:27-31 | the padding table has one entry per level, and entry `i` is the value of a subtree of height `i` made only of `zeroValue` leaves |
| MerkleTree.Create | app/utils/merkletree.js:12-39 | construction fails exactly at depth 0. Otherwise `zeros[0]` is `zeroValue`, each later entry hashes the previous one with itself, `filledSubtrees` equals `zeros`, the leaf list is empty, `nextIndex` is 0, and the root is the reference root of `2^depth` padding leaves |
| MerkleTree.InsertLevels | app/utils/merkletree.js:66-87 | the insertion walk from a level upward leaves lower levels, leaves, `zeros` and `nextIndex` alone, never drops a cache entry, and caches the new leaf's ancestor and its sibling at every level it visits |
| MerkleTree.Insert | app/utils/merkletree.js:58-89 | `nextIndex` grows by exactly one; the leaf is appended and every earlier leaf, the depth and `zeros` are unchanged; the tree keeps its shape whatever the capacity |
| MerkleTree.GetPath | app/utils/merkletree.js:162-176 | the witness has exactly `depth` entries, each a value cached at its own level |
| MerkleTree.CommitLevels | app/utils/merkletree.js:132-154 | the commit pass makes the root the fold of the new value with the path and caches the node and its given sibling at each level. It touches no level below its start, no leaf and no stored subtree |
| MerkleTree.UpdateWithPath | app/utils/merkletree.js:105-156 | `_update` succeeds exactly when the leaf exists, the path covers every level and folding the stored leaf with it reproduces the root. It throws the root-mismatch error exactly when the operands were all defined. On success the leaf alone changes, the root is the fold of the new leaf with the same path, and that path is what is cached; on failure no new state exists |
| MerkleTree.Update | app/utils/merkletree.js:92-98 | an index at or past `nextIndex` throws. On success only that leaf changes, the root is the fold of the new leaf with the witness `getPath` gave, and `getPath` afterwards returns that same witness |
| Invariants.CreateValid | app/utils/merkletree.js:12-39 | a new tree satisfies the full invariant: exact padding table, exact caches, fresh stored subtrees, and the reference root |
| Invariants.InsertStepKeeps | app/utils/merkletree.js:67-83 | one level of `insert` keeps the level's cache exact and its stored subtree fresh for the grown leaf list, and hashes to the true parent |
| Invariants.InsertLevelsKeep | app/utils/merkletree.js:66-87 | the insertion walk leaves every level exact for the grown leaf list and ends at the top-level node above the new leaf, which is the reference root while the tree is within capacity (`Invariants.InsertPreservesValid`) |
| Invariants.InsertPreservesValid | app/utils/merkletree.js:58-89 | within capacity, `insert` keeps the full invariant, and the new root is the reference root of the old leaves plus the new one |
| Invariants.PathEntries | app/utils/merkletree.js:162-176 | in a consistent tree, entry `i` of `getPath(j)` is the true value of the sibling of leaf `j`'s ancestor at level `i` |
| Invariants.PathFoldsToRoot | app/utils/merkletree.js:162-176 | in a consistent tree, folding `leafs[j]` with `getPath(j)` reproduces the current root |
| Invariants.CommitStepKeeps | app/utils/merkletree.js:136-150 | one level of the commit pass keeps the level's cache exact for the updated leaf list and hashes to the true parent |
| Invariants.CommitLevelsKeep | app/utils/merkletree.js:132-152 | given true siblings, the commit pass leaves every level's cache exact for the updated leaf list |
| Invariants.UpdatePreservesConsistent | app/utils/merkletree.js:92-156 | in a consistent tree, updating an inserted leaf never throws, keeps the tree consistent, and leaves the reference root of the updated leaf list |
| Invariants.CommitLevelsNoop | app/utils/merkletree.js:132-152 | rewriting every level with the values already cached there leaves the cache unchanged |
| Invariants.UpdateSameLeafIsIdentity | app/utils/merkletree.js:92-156 | in a consistent tree, `update(j, leafs[j])` returns exactly the tree it was given |
| History.RunKeepsConsistent | app/utils/merkletree.js:58-156 | a legal history whose inserts all come before its updates never throws, keeps the tree consistent, leaves the replayed leaf list, and leaves the reference root of that list |
| History.CreateInsertUpdate | app/utils/merkletree.js:12-156 | from construction, any legal history of inserts followed by updates succeeds and ends at the reference root of its replayed leaves |
| Findings.StaleSubtreeAfterUpdate | app/utils/merkletree.js:132-155 | depth 1: after insert 1, `update(0, 5)`, insert 7, the leaves are `[5, 7]` but the root is `hash(1, 7)`, while the reference root is `hash(5, 7)` |
| Findings.InsertThenUpdate | app/utils/merkletree.js:132-155 | after insert 1 and `update(0, 5)` the leaf reads 5 but the stored left subtree still reads 1 |
| Findings.OddSlotPairsWithStoredSubtree | app/utils/merkletree.js:75-80 | at every right-hand slot (odd `nextIndex`), `insert` caches the stored left subtree, not a value from the leaf list, as the left child at level 0 and the new leaf as the right child, and leaves the subtree as it was; at depth 1 their hash is the new root |
| Findings.StaleTreeRejectsUpdate | app/utils/merkletree.js:110-130 | after that history, whenever `hash(5, 7)` differs from `hash(1, 7)`, every later `update(0, v)` throws the root-mismatch error |
| Findings.StaleSubtreeUnderIdentity | app/utils/merkletree.js:76 | under `hashLeftRight` as written with the identity permutation, that history ends with root 8, against a reference root of 12, and a following `update(0, 500)` throws |
| Findings.CommitLevelsIgnoresSubtrees | app/utils/merkletree.js:132-155 | the commit pass neither reads nor writes the stored subtrees |
| Findings.CommitLevelsFixed | app/utils/merkletree.js:132-155 | the corrected commit pass keeps one stored subtree per level and leaves levels below its start alone |
| Findings.CommitLevelsFixedAgrees | app/utils/merkletree.js:132-155 | the corrected commit pass differs from the written one only in the stored subtrees |
| Findings.UpdateFixed | app/utils/merkletree.js:105-156 | the corrected update fails exactly when the written one does, with the same error, and otherwise differs from it only in the stored subtrees |
| Findings.CommitFixedSubtrees | app/utils/merkletree.js:132-155 | the corrected commit pass stores the new node value at each level where the rewritten node is the left subtree the next insert will pair with, and keeps the old value elsewhere |
| Findings.UpdateFixedPreservesValid | app/utils/merkletree.js:105-156 | in a valid tree the corrected update of an inserted leaf succeeds, keeps the full invariant including fresh subtrees, and leaves the reference root |
| Findings.RunFixedKeepsValid | app/utils/merkletree.js:58-156 | with the corrected update, any legal mix of inserts and updates in any order keeps the full invariant and ends at the reference root of the replayed leaves |
| Findings.FixedHistoryReachesReferenceRoot | app/utils/merkletree.js:132-155 | the counterexample history under the corrected update ends at `hash(5, 7)`, the reference root |
| Scenario.ScriptReplay | app/utils/merkletree.js:179-184 | the script is legal on an empty tree of depth 4, inserts before it updates, and replays to `[500, 42]` |
| Scenario.TwoLeavesAtDepthFour | app/utils/merkletree.js:179-184 | at depth 4, the reference root of two leaves hashes the pair and then pairs it with the padding value of levels 1, 2 and 3 |
| Scenario.ScriptEndsAtReferenceRoot | app/utils/merkletree.js:179-186 | for any pair hash, so also for `hashLeftRight` as written, the script never throws and leaves `[500, 42]`. Its root is the reference root of those leaves, recomputed bottom-up with the padding table |

## Left out

- `mimc7.hash` (circomlib) is left abstract as a function parameter. So is any other pair hash, because the tree is written against any `PairHash`.
- `hashLeftRight` is not commutative in general. Without the real permutation this cannot be proved, so it is not claimed.
- The staleness guard for a witness captured before an intervening call is not claimed either. It would need collision resistance of the hash.
- Capacity: `insert` has no bound check, and `Insert` models it without one. Past `2^depth` leaves the model, like the code, produces a root of no meaning. The invariant lemmas require `nextIndex < 2^depth`.
- `Update`, `UpdateWithPath`: the index is a `nat`. Negative, fractional and non-numeric indices, which JavaScript would accept, are not modelled.
- `parseInt(curIdx / 2)` is modelled as `curIdx / 2` on naturals. Its float and string round trip is exact for every index below `10^21`.
- MerkleTree.GetPath: requires `j < nextIndex`. `getPath` accepts any index and, past the inserted leaves, can return `undefined` entries. Those entries only matter through `update`, which the model covers for every index (`Update` returns `Err(UndefinedOperand)` there).
- Leaves are BigInts, modelled as `int`. A Number leaf would make `insert` throw a `TypeError` inside `hashLeftRight` after it has already advanced `nextIndex` (line 60) and written level 0. At an even slot the level-0 writes are lines 71-74 and the throw is the first `%`, on the left operand (line 48). At an odd slot the writes are lines 79-80 and the throw is the second `%`, on the right operand (line 51). That partial state is not modelled.
- Depth is a `nat`. A non-integer or negative depth passed to the constructor is not modelled.
- The module-load script prints its leaves with `console.log`. The print is I/O and is dropped; the script itself is the `Scenario` module.
- app/utils/contracts.js builds the provider, wallet and contract objects. That is I/O wiring with no logic.
- The tests compare the tree against the on-chain contract. Besides `insert`, `update` and `root`, they read `leaves` (test/testMerkleTree.js line 93) and call `getPathUpdate` (lines 110 and 132). This file defines neither, so they are not part of this model.
- The circuit tests and their crypto primitives (key derivation, ECDH, encryption, signatures) are not part of this model.

## Findings

| source | as written | input that shows it | evidently intended | confidence | as-written member | corrected member |
|---|---|---|---|---|---|---|
| app/utils/merkletree.js:45 | the modulus is written as a Number literal and only then converted with `BigInt(...)`, so `k` is `p` rounded to a double (`6810543489849552 * 2^201`), about `2.6e59` below `p`; as written only congruence modulo `k` is respected (the first ensures of `MimcPairAsWritten`), not congruence modulo `p` | `hashLeftRight(k, 0)` and `hashLeftRight(0, 0)` are equal for every permutation, although `k` and `0` are distinct field elements; likewise `a` and `a + k` for every `a` below `p - k` | reduce by the prime itself, `21888…495617n`, so that field elements pass through unchanged | not executed | Field.AsWrittenConflatesModulus | Field.FieldElementsAbsorbedUnreduced |
| app/utils/merkletree.js:132-155 | the commit pass of `_update` rewrites the cached path and the root but never `filledSubtrees`, which `insert` reads as the left sibling at line 76 | depth 1, padding 0: `insert(1)`, `update(0, 5)`, `insert(7)` gives root `hash(1, 7)` instead of `hash(5, 7)`, and a later `update(0, v)` then throws a root mismatch | refresh `filledSubtrees[i]` when the rewritten node at level `i` is the left subtree the next insertion pairs with | not executed | Findings.StaleSubtreeAfterUpdate | Findings.RunFixedKeepsValid |

For the first row, `MimcPair` is the corrected pair hash, reducing modulo
`p`. `MimcPairAsWritten` is the pair hash as written, and
`Field.ModulusSeparatesUnderIdentity` shows the two on the same input. The
tree lemmas are stated for any pair hash, so they hold for both. For the second row, `Findings.UpdateFixed`
is the corrected update; `Findings.UpdateFixedPreservesValid` proves it keeps
the invariant one call at a time, and `Findings.FixedHistoryReachesReferenceRoot`
replays the counterexample with it.

=== FILE: field.dfy ===
/**
 * The primitive layer the off-chain Merkle tree hashes with: BigInt remainder
 * and the pairwise `hashLeftRight` built on the MiMC-7 permutation. The
 * permutation itself is not modelled; every operation that hashes receives it
 * as a parameter of type `Mimc`.
 */
module Field {

  /** The scalar field prime `p` of the BN254 curve. */
  const P: int := 21888242871839275222246405745257275088548364400416034343698204186575808495617

  /**
   * The modulus `hashLeftRight` actually reduces by. The source writes the
   * digits of `p` as a Number literal and only then converts it to a BigInt,
   * so the value is `p` rounded to the nearest IEEE-754 double.
   */
  const K: int := 21888242871839274960365879161692293417541007897083299644943589776713637167104

  /** `2^201`, the spacing of doubles around `p` (one unit in the last place). */
  const Ulp: int := 3213876088517980551083924184682325205044405987565585670602752

  /** `mimc7.hash(x, k)`: the MiMC-7 permutation of `x` under key `k`, left abstract. */
  type Mimc = (int, int) -> int

  /**
   * A pairwise hash `(left, right) -> parent`. The tree is written against
   * any such function: `MimcPairAsWritten(mimc)` is the one the source
   * runs, `MimcPair(mimc)` the corrected one.
   */
  type PairHash = (int, int) -> int

  function Pow2(n: nat): (r: nat)
    ensures r >= 1
  {
    if n == 0 then 1 else 2 * Pow2(n - 1)
  }

  /** Powers of two multiply by adding exponents. */
  lemma {:induction false} Pow2Add(a: nat, b: nat)
    ensures Pow2(a + b) == Pow2(a) * Pow2(b)
  {
    if a > 0 {
      Pow2Add(a - 1, b);
      assert Pow2(a + b) == 2 * Pow2(a - 1 + b);
    }
  }

  /**
   * The BigInt `%` operator: the remainder truncates toward zero, so it takes
   * the sign of the dividend (unlike Dafny's Euclidean `%`). Sign, bound and
   * congruence together leave exactly one candidate.
   */
  function BigIntRem(a: int, m: int): (r: int)
    requires m > 0
    ensures -m < r < m
    ensures a >= 0 ==> 0 <= r
    ensures a < 0 ==> r <= 0
    ensures (a - r) % m == 0
  {
    if a >= 0 then
      DivUnique(a - a % m, m, a / m, 0);
      a % m
    else
      DivUnique(a + (-a) % m, m, -((-a) / m), 0);
      -((-a) % m)
  }

  /** Division by `d` has one quotient and one remainder. */
  lemma DivUnique(a: int, d: int, q: int, r: int)
    requires d > 0 && 0 <= r < d && a == q * d + r
    ensures a / d == q && a % d == r
  {
    var q' := a / d;
    var r' := a % d;
    assert a == q' * d + r';
    assert (q - q') * d == r' - r;
    if q' < q {
      MulAtLeast(q - q', d);
    } else if q' > q {
      MulAtLeast(q' - q, d);
    }
  }

  lemma MulAtLeast(e: int, d: int)
    requires e >= 1 && d > 0
    ensures e * d >= d
  {
    assert e * d == d + (e - 1) * d;
  }

  /**
   * `hashLeftRight(left, right)` as the source computes it: absorb
   * `left % k`, permute with key 0, add `right % k`, permute again, where
   * `k` is the rounded modulus `K`.
   */
  function HashLeftRightAsWritten(mimc: Mimc, left: int, right: int): (r: int)
    ensures 0 <= left < K && 0 <= right < K ==> r == mimc(mimc(left, 0) + right, 0)
  {
    var r0 := 0 + BigIntRem(left, K);
    var r1 := mimc(r0, 0);
    var r2 := r1 + BigIntRem(right, K);
    mimc(r2, 0)
  }

  /**
   * `hashLeftRight(left, right)` with the operands reduced modulo the field
   * prime `p`, as intended. `MimcPair` builds the corrected pair hash on it.
   */
  function HashLeftRight(mimc: Mimc, left: int, right: int): (r: int)
  {
    var r0 := 0 + BigIntRem(left, P);
    var r1 := mimc(r0, 0);
    var r2 := r1 + BigIntRem(right, P);
    mimc(r2, 0)
  }

  /**
   * The pair hash the tree runs with: `hashLeftRight` as written, over a
   * given MiMC-7 permutation. It sees its operands only through their
   * remainders modulo `k`, and below `k` it absorbs them unchanged.
   */
  function MimcPairAsWritten(mimc: Mimc): (hash: PairHash)
    ensures forall a, b, c, d {:trigger hash(a, b), hash(c, d)}
      | BigIntRem(a, K) == BigIntRem(c, K) && BigIntRem(b, K) == BigIntRem(d, K) :: hash(a, b) == hash(c, d)
    ensures forall a, b {:trigger hash(a, b)} | 0 <= a < K && 0 <= b < K :: hash(a, b) == mimc(mimc(a, 0) + b, 0)
  {
    (left, right) => HashLeftRightAsWritten(mimc, left, right)
  }

  /**
   * The corrected pair hash: `hashLeftRight` reducing by the prime `p`. It
   * sees its operands only through their remainders modulo `p`, and absorbs
   * field elements unchanged.
   */
  function MimcPair(mimc: Mimc): (hash: PairHash)
    ensures forall a, b, c, d {:trigger hash(a, b), hash(c, d)}
      | BigIntRem(a, P) == BigIntRem(c, P) && BigIntRem(b, P) == BigIntRem(d, P) :: hash(a, b) == hash(c, d)
    ensures forall a, b {:trigger hash(a, b)} | 0 <= a < P && 0 <= b < P :: hash(a, b) == mimc(mimc(a, 0) + b, 0)
  {
    (left, right) => HashLeftRight(mimc, left, right)
  }

  /**
   * `K` is a double (a 53-bit significand times `2^201`) and lies within half
   * a unit in the last place below `p`: it is what the literal rounds to, and
   * it is not `p`.
   */
  lemma ModulusLiteralIsRounded()
    ensures Ulp == Pow2(201)
    ensures K == 6810543489849552 * Ulp
    ensures 0x10_0000_0000_0000 <= 6810543489849552 < 0x20_0000_0000_0000
    ensures 0 < P - K && 2 * (P - K) < Ulp
  {
    assert Pow2(1) == 2;
    Pow2Add(1, 1);
    assert Pow2(2) == 4;
    Pow2Add(2, 2);
    assert Pow2(4) == 16;
    Pow2Add(4, 4);
    assert Pow2(8) == 256;
    Pow2Add(8, 8);
    assert Pow2(16) == 65536;
    Pow2Add(16, 16);
    assert Pow2(32) == 4294967296;
    Pow2Add(32, 32);
    assert Pow2(64) == 18446744073709551616;
    Pow2Add(64, 64);
    assert Pow2(128) == 340282366920938463463374607431768211456;
    Pow2Add(128, 64);
    assert Pow2(192) == 6277101735386680763835789423207666416102355444464034512896;
    Pow2Add(192, 8);
    assert Pow2(200) == 1606938044258990275541962092341162602522202993782792835301376;
    Pow2Add(200, 1);
    assert Pow2(201) == 3213876088517980551083924184682325205044405987565585670602752;
  }

  /**
   * As written, the field element `k` and `0` hash alike in either position,
   * whatever the permutation: two distinct field elements are conflated.
   */
  lemma AsWrittenConflatesModulus(mimc: Mimc, a: int)
    ensures 0 < K < P
    ensures HashLeftRightAsWritten(mimc, K, a) == HashLeftRightAsWritten(mimc, 0, a)
    ensures HashLeftRightAsWritten(mimc, a, K) == HashLeftRightAsWritten(mimc, a, 0)
  {
    assert BigIntRem(K, K) == 0;
    assert BigIntRem(0, K) == 0;
  }

  /**
   * The conflation is not confined to `k`: every field element `a` below
   * `p - k` collides with the distinct field element `a + k`, in either
   * operand position, whatever the permutation.
   */
  lemma AsWrittenCollidesAcrossField(mimc: Mimc, a: int, b: int)
    requires 0 <= a < P - K
    ensures a < a + K < P
    ensures HashLeftRightAsWritten(mimc, a + K, b) == HashLeftRightAsWritten(mimc, a, b)
    ensures HashLeftRightAsWritten(mimc, b, a + K) == HashLeftRightAsWritten(mimc, b, a)
  {
    assert BigIntRem(a + K, K) == a == BigIntRem(a, K);
  }

  /**
   * With the prime as modulus every field element is absorbed as itself:
   * on operands in `[0, p)` the reductions are the identity.
   */
  lemma FieldElementsAbsorbedUnreduced(mimc: Mimc, a: int, b: int)
    requires 0 <= a < P && 0 <= b < P
    ensures HashLeftRight(mimc, a, b) == mimc(mimc(a, 0) + b, 0)
  {
    assert BigIntRem(a, P) == a;
    assert BigIntRem(b, P) == b;
  }

  /**
   * The two reductions part ways exactly at `k`: under the identity
   * permutation the corrected hash tells `k` from `0`, the written one does not.
   */
  lemma ModulusSeparatesUnderIdentity()
    ensures HashLeftRight((x, key) => x, K, 0) == K
    ensures HashLeftRight((x, key) => x, 0, 0) == 0
    ensures HashLeftRightAsWritten((x, key) => x, K, 0) == HashLeftRightAsWritten((x, key) => x, 0, 0)
  {
    FieldElementsAbsorbedUnreduced((x, key) => x, K, 0);
    FieldElementsAbsorbedUnreduced((x, key) => x, 0, 0);
    AsWrittenConflatesModulus((x, key) => x, 0);
  }

  /** Reducing a remainder again by the same modulus changes nothing. */
  lemma RemIdempotent(a: int, m: int)
    requires m > 0
    ensures BigIntRem(BigIntRem(a, m), m) == BigIntRem(a, m)
  {
    var r := BigIntRem(a, m);
    if r >= 0 {
      DivUnique(r, m, 0, r);
    } else {
      DivUnique(-r, m, 0, -r);
    }
  }

  /**
   * The hash only sees its operands reduced modulo `p`: pre-reducing either
   * operand with the same BigInt remainder leaves the result unchanged.
   */
  lemma HashReducesOperands(mimc: Mimc, a: int, b: int)
    ensures HashLeftRight(mimc, a, b) == HashLeftRight(mimc, BigIntRem(a, P), BigIntRem(b, P))
  {
    RemIdempotent(a, P);
    RemIdempotent(b, P);
  }

  /**
   * For field elements given as non-negative integers, operands congruent
   * modulo `p` hash alike; in particular
   * `hashLeftRight(a, b) == hashLeftRight(a % p, b % p)`.
   */
  lemma HashRespectsCongruence(mimc: Mimc, a: int, b: int, a': int, b': int)
    requires a >= 0 && b >= 0 && a' >= 0 && b' >= 0
    requires a % P == a' % P && b % P == b' % P
    ensures HashLeftRight(mimc, a, b) == HashLeftRight(mimc, a', b')
    ensures HashLeftRight(mimc, a, b) == HashLeftRight(mimc, a % P, b % P)
  {
    HashReducesOperands(mimc, a, b);
    HashReducesOperands(mimc, a', b');
  }
}

=== FILE: findings.dfy ===
/**
 * `_update` rewrites the cached path nodes and the root but never the stored
 * left subtrees `filledSubtrees`. When the rewritten leaf lies under the left
 * subtree the next insertion pairs with, that insertion hashes with the old
 * value and the root leaves the reference root. This module exhibits the
 * divergence and proves a commit pass that also refreshes the stored subtree
 * keeps the full invariant across any mix of inserts and updates.
 */
module Findings {
  import opened Field
  import opened Reference
  import opened MerkleTree
  import opened Invariants
  import opened History

  /* ---------------------------------------------------------------------- */
  /* The code as written                                                     */
  /* ---------------------------------------------------------------------- */

  /** The history of the counterexample: insert 1, update leaf 0 to 5, insert 7. */
  const StaleHistory: seq<Op> := [InsertOp(1), UpdateOp(0, 5), InsertOp(7)]

  /**
   * Depth 1, padding 0: insert 1, update leaf 0 to 5, insert 7. The second
   * insert pairs 7 with the stale stored subtree 1, so the root is
   * `hash(1, 7)` where the reference root is `hash(5, 7)`.
   */
  lemma StaleSubtreeAfterUpdate(hash: PairHash)
    ensures Create(hash, 1, 0).Ok?
    ensures var r := Run(hash, Create(hash, 1, 0).value, StaleHistory);
      && r.Ok?
      && r.value.leafs == [5, 7]
      && r.value.root == hash(1, 7)
      && r.value.filledPaths[0][1] == 7
      && Root(hash, [5, 7], 0, 1) == hash(5, 7)
  {
    var ops := StaleHistory;
    assert ops[1..] == [UpdateOp(0, 5), InsertOp(7)] && ops[2..] == [InsertOp(7)];
    InsertThenUpdate(hash);
    var t0 := Create(hash, 1, 0).value;
    var t1 := Insert(hash, t0, 1);
    var t2 := Update(hash, t1, 0, 5).value;
    OddSlotPairsWithStoredSubtree(hash, t2, 7);
    assert Run(hash, t0, ops) == Run(hash, t1, ops[1..]);
    assert Run(hash, t1, ops[1..]) == Run(hash, t2, ops[2..]);
    TwoLeafRoot(hash, 5, 7);
  }

  /**
   * The first two calls of the history: after `insert(1)` and
   * `update(0, 5)` the leaf reads 5 but the stored left subtree still reads 1.
   */
  lemma InsertThenUpdate(hash: PairHash)
    ensures Create(hash, 1, 0).Ok?
    ensures var t1 := Insert(hash, Create(hash, 1, 0).value, 1);
      && Update(hash, t1, 0, 5).Ok?
      && Update(hash, t1, 0, 5).value.depth == 1
      && Update(hash, t1, 0, 5).value.nextIndex == 1
      && Update(hash, t1, 0, 5).value.leafs == [5]
      && Update(hash, t1, 0, 5).value.filledSubtrees[0] == 1
  {
    var t0 := Create(hash, 1, 0).value;
    var t1 := Insert(hash, t0, 1);
    assert t1.filledSubtrees[0] == 1;
    CreateValid(hash, 1, 0);
    InsertPreservesValid(hash, t0, 1);
    UpdatePreservesConsistent(hash, t1, 0, 5);
  }

  /**
   * At a right-hand slot, `insert` pairs the new leaf with the stored left
   * subtree, whatever the leaf list says, caches the pair at level 0 and
   * keeps the subtree; in a tree of depth 1 that pair is the new root.
   */
  lemma OddSlotPairsWithStoredSubtree(hash: PairHash, t: Tree, leaf: int)
    requires Shaped(t) && t.nextIndex % 2 == 1
    ensures Insert(hash, t, leaf).filledPaths[0][t.nextIndex - 1] == t.filledSubtrees[0]
    ensures Insert(hash, t, leaf).filledPaths[0][t.nextIndex] == leaf
    ensures Insert(hash, t, leaf).filledSubtrees[0] == t.filledSubtrees[0]
    ensures t.depth == 1 ==> Insert(hash, t, leaf).root == hash(t.filledSubtrees[0], leaf)
  {
    var n := t.nextIndex;
    var u := t.(nextIndex := n + 1);
    var w := InsertStep(hash, u.zeros[0], u.filledSubtrees[0], u.filledPaths[0], n, leaf);
    assert InsertLevels(hash, u, 0, n, leaf)
        == InsertLevels(hash, u.(filledSubtrees := u.filledSubtrees[0 := w.subtree], filledPaths := u.filledPaths[0 := w.cache]), 1, n / 2, w.hash);
  }

  /**
   * The stale root then locks leaf 0: whenever `hash(5, 7)` differs from
   * `hash(1, 7)`, the verification pass of any later `update(0, v)` folds the
   * stored leaf 5 with its sibling 7, misses the root and throws.
   */
  lemma StaleTreeRejectsUpdate(hash: PairHash, v: int)
    requires hash(5, 7) != hash(1, 7)
    ensures Create(hash, 1, 0).Ok?
    ensures var r := Run(hash, Create(hash, 1, 0).value, StaleHistory);
      r.Ok? && Update(hash, r.value, 0, v) == Err(RootMismatch)
  {
    StaleSubtreeAfterUpdate(hash);
    var t := Run(hash, Create(hash, 1, 0).value, StaleHistory).value;
    assert GetPath(t, 0) == [7];
    assert Fold(hash, 0, 5, [7]) == hash(5, 7);
  }

  /**
   * The same history under `hashLeftRight` as written, with the identity
   * permutation: the tree reports root 8, the reference root is 12.
   */
  lemma StaleSubtreeUnderIdentity()
    ensures var hash := MimcPairAsWritten((x, key) => x);
      Create(hash, 1, 0).Ok? &&
      var r := Run(hash, Create(hash, 1, 0).value, StaleHistory);
      && r.Ok?
      && r.value.root == 8
      && Root(hash, r.value.leafs, 0, 1) == 12
      && Update(hash, r.value, 0, 500) == Err(RootMismatch)
  {
    var hash := MimcPairAsWritten((x, key) => x);
    StaleSubtreeAfterUpdate(hash);
    assert hash(1, 7) == 8 && hash(5, 7) == 12;
    StaleTreeRejectsUpdate(hash, 500);
  }

  /* ---------------------------------------------------------------------- */
  /* The corrected commit pass                                               */
  /* ---------------------------------------------------------------------- */

  /** The commit pass does not read the stored left subtrees. */
  lemma {:induction false} CommitLevelsIgnoresSubtrees(hash: PairHash, t: Tree, x: seq<int>, path: seq<int>, level: nat, c: nat, cur: int)
    requires |t.filledPaths| == t.depth && |path| >= t.depth && level <= t.depth
    ensures CommitLevels(hash, t.(filledSubtrees := x), path, level, c, cur)
         == CommitLevels(hash, t, path, level, c, cur).(filledSubtrees := x)
    decreases t.depth - level
  {
    if level < t.depth {
      var w := CommitStep(hash, t.filledPaths[level], c, cur, path[level]);
      var t' := t.(filledPaths := t.filledPaths[level := w.cache]);
      CommitLevelsIgnoresSubtrees(hash, t', x, path, level + 1, c / 2, w.hash);
      assert t.(filledSubtrees := x).(filledPaths := t.filledPaths[level := w.cache]) == t'.(filledSubtrees := x);
    }
  }

  /**
   * The commit pass of `_update` with the missing write: at a level where
   * the rewritten node is the left neighbour of the next insertion's
   * ancestor, it is the stored left subtree, so store its new value too.
   */
  function CommitLevelsFixed(hash: PairHash, t: Tree, path: seq<int>, level: nat, c: nat, cur: int): (r: Tree)
    requires |t.filledPaths| == t.depth && |t.filledSubtrees| == t.depth && |path| >= t.depth && level <= t.depth
    ensures |r.filledSubtrees| == t.depth
    ensures forall i | 0 <= i < level :: r.filledSubtrees[i] == t.filledSubtrees[i]
    decreases t.depth - level
  {
    if level == t.depth then t.(root := cur)
    else
      var w := CommitStep(hash, t.filledPaths[level], c, cur, path[level]);
      var subtrees :=
        if c % 2 == 0 && c + 1 == Ancestor(t.nextIndex, level)
        then t.filledSubtrees[level := cur] else t.filledSubtrees;
      CommitLevelsFixed(hash, t.(filledPaths := t.filledPaths[level := w.cache], filledSubtrees := subtrees),
                        path, level + 1, c / 2, w.hash)
  }

  /** The corrected commit pass differs from the written one only in `filledSubtrees`. */
  lemma {:induction false} CommitLevelsFixedAgrees(hash: PairHash, t: Tree, path: seq<int>, level: nat, c: nat, cur: int)
    requires |t.filledPaths| == t.depth && |t.filledSubtrees| == t.depth && |path| >= t.depth && level <= t.depth
    ensures CommitLevelsFixed(hash, t, path, level, c, cur).(filledSubtrees := t.filledSubtrees)
         == CommitLevels(hash, t, path, level, c, cur)
    decreases t.depth - level
  {
    if level < t.depth {
      var w := CommitStep(hash, t.filledPaths[level], c, cur, path[level]);
      var subtrees :=
        if c % 2 == 0 && c + 1 == Ancestor(t.nextIndex, level)
        then t.filledSubtrees[level := cur] else t.filledSubtrees;
      var u := t.(filledPaths := t.filledPaths[level := w.cache]);
      var r := CommitLevelsFixed(hash, u.(filledSubtrees := subtrees), path, level + 1, c / 2, w.hash);
      CommitLevelsFixedAgrees(hash, u.(filledSubtrees := subtrees), path, level + 1, c / 2, w.hash);
      CommitLevelsIgnoresSubtrees(hash, u, subtrees, path, level + 1, c / 2, w.hash);
      var plain := CommitLevels(hash, u, path, level + 1, c / 2, w.hash);
      assert r.(filledSubtrees := subtrees) == plain.(filledSubtrees := subtrees);
      assert r.(filledSubtrees := t.filledSubtrees) == plain;
      assert CommitLevelsFixed(hash, t, path, level, c, cur) == r;
    }
  }

  /**
   * `update(leafIndex, leaf)` with the corrected commit pass. It throws
   * exactly when `update` does, and on success differs from it only in
   * `filledSubtrees`.
   */
  function UpdateFixed(hash: PairHash, t: Tree, leafIndex: nat, leaf: int): (r: Result<Tree>)
    requires Shaped(t)
    ensures r.Err? ==> r == Update(hash, t, leafIndex, leaf)
    ensures r.Ok? ==>
      && Update(hash, t, leafIndex, leaf).Ok?
      && Shaped(r.value)
      && r.value.(filledSubtrees := t.filledSubtrees) == Update(hash, t, leafIndex, leaf).value
    ensures Update(hash, t, leafIndex, leaf).Ok? ==> r.Ok?
  {
    if leafIndex >= t.nextIndex then Err(UndefinedOperand)
    else
      var path := GetPath(t, leafIndex);
      assert path[..t.depth] == path;
      if Fold(hash, leafIndex, t.leafs[leafIndex], path) != t.root then Err(RootMismatch)
      else
        var c := CommitLevelsFixed(hash, t, path, 0, leafIndex, leaf);
        CommitLevelsFixedAgrees(hash, t, path, 0, leafIndex, leaf);
        var r := c.(leafs := t.leafs[leafIndex := leaf]);
        assert r.(filledSubtrees := t.filledSubtrees) == Update(hash, t, leafIndex, leaf).value;
        Ok(r)
  }

  /**
   * Combining the new value of leaf `j`'s ancestor with its true sibling
   * gives the new value of the parent.
   */
  lemma CommitHashClimbs(hash: PairHash, leafs: seq<int>, j: nat, v: int, zeroValue: int, level: nat, cur: int, sibling: int)
    requires j < |leafs|
    requires cur == Node(hash, leafs[j := v], zeroValue, level, Ancestor(j, level))
    requires sibling == Node(hash, leafs, zeroValue, level, Sibling(Ancestor(j, level)))
    ensures Combine(hash, Ancestor(j, level), cur, sibling)
         == Node(hash, leafs[j := v], zeroValue, level + 1, Ancestor(j, level + 1))
  {
    ReplaceFrame(hash, leafs, j, v, zeroValue, level, Sibling(Ancestor(j, level)));
    Climb(hash, leafs[j := v], zeroValue, level, Ancestor(j, level));
  }

  /**
   * What the corrected commit pass leaves in `filledSubtrees` for a rewrite
   * of leaf `j`, given the value `value(i)` it computes for `j`'s ancestor at
   * each level `i`: that value where the ancestor is the left neighbour of
   * the next insertion's, the old entry elsewhere.
   */
  lemma {:induction false} CommitFixedSubtrees(hash: PairHash, t: Tree, path: seq<int>, j: nat, value: nat -> int, level: nat, c: nat, cur: int)
    requires |t.filledPaths| == t.depth && |t.filledSubtrees| == t.depth && |path| >= t.depth && level <= t.depth
    requires c == Ancestor(j, level) && cur == value(level)
    requires forall i {:trigger path[i]} | level <= i < t.depth :: Combine(hash, Ancestor(j, i), value(i), path[i]) == value(i + 1)
    ensures forall i | level <= i < t.depth ::
      CommitLevelsFixed(hash, t, path, level, c, cur).filledSubtrees[i]
        == if Ancestor(j, i) % 2 == 0 && Ancestor(j, i) + 1 == Ancestor(t.nextIndex, i)
           then value(i) else t.filledSubtrees[i]
    decreases t.depth - level
  {
    if level < t.depth {
      var w := CommitStep(hash, t.filledPaths[level], c, cur, path[level]);
      var subtrees :=
        if c % 2 == 0 && c + 1 == Ancestor(t.nextIndex, level)
        then t.filledSubtrees[level := cur] else t.filledSubtrees;
      var t' := t.(filledPaths := t.filledPaths[level := w.cache], filledSubtrees := subtrees);
      assert w.hash == value(level + 1);
      CommitFixedSubtrees(hash, t', path, j, value, level + 1, c / 2, w.hash);
    }
  }

  /**
   * The corrected `update` on a valid tree never throws for an inserted
   * leaf, keeps the tree valid, stored left subtrees included, and installs
   * the reference root of the rewritten leaf row.
   */
  lemma UpdateFixedPreservesValid(hash: PairHash, t: Tree, j: nat, v: int)
    requires Valid(hash, t) && j < t.nextIndex
    ensures UpdateFixed(hash, t, j, v).Ok?
    ensures Valid(hash, UpdateFixed(hash, t, j, v).value)
    ensures UpdateFixed(hash, t, j, v).value.root == Root(hash, t.leafs[j := v], t.zeroValue, t.depth)
    ensures UpdateFixed(hash, t, j, v).value.leafs == t.leafs[j := v]
  {
    UpdatePreservesConsistent(hash, t, j, v);
    var r := UpdateFixed(hash, t, j, v).value;
    ConsistentIgnoresSubtrees(hash, Update(hash, t, j, v).value, r.filledSubtrees);
    assert r == Update(hash, t, j, v).value.(filledSubtrees := r.filledSubtrees);
    UpdateFixedRefreshes(hash, t, j, v);
  }

  /** `Consistent` says nothing about the stored left subtrees beyond their number. */
  lemma ConsistentIgnoresSubtrees(hash: PairHash, t: Tree, x: seq<int>)
    requires Consistent(hash, t) && |x| == t.depth
    ensures Consistent(hash, t.(filledSubtrees := x))
  {
    var u := t.(filledSubtrees := x);
    assert forall i, j | 0 <= i < u.depth && 0 <= j < u.nextIndex :: Cached(u.filledPaths[i], Ancestor(j, i)) by {
      forall i, j | 0 <= i < u.depth && 0 <= j < u.nextIndex
        ensures Cached(u.filledPaths[i], Ancestor(j, i))
      {
        assert Cached(t.filledPaths[i], Ancestor(j, i));
      }
    }
  }

  /** After the corrected `update` every stored left subtree is fresh for the new leaf row. */
  lemma UpdateFixedRefreshes(hash: PairHash, t: Tree, j: nat, v: int)
    requires Valid(hash, t) && j < t.nextIndex
    ensures UpdateFixed(hash, t, j, v).Ok?
    ensures forall i | 0 <= i < t.depth ::
      SubtreeFresh(hash, t.leafs[j := v], t.zeroValue, UpdateFixed(hash, t, j, v).value.filledSubtrees[i], i)
  {
    PathFoldsToRoot(hash, t, j);
    var r := UpdateFixed(hash, t, j, v).value;
    var path := GetPath(t, j);
    var leafs' := t.leafs[j := v];
    var value := (i: nat) => Node(hash, leafs', t.zeroValue, i, Ancestor(j, i));
    forall i {:trigger path[i]} | 0 <= i < t.depth
      ensures Combine(hash, Ancestor(j, i), value(i), path[i]) == value(i + 1)
    {
      CommitHashClimbs(hash, t.leafs, j, v, t.zeroValue, i, value(i), path[i]);
    }
    CommitFixedSubtrees(hash, t, path, j, value, 0, j, v);
    assert r.filledSubtrees == CommitLevelsFixed(hash, t, path, 0, j, v).filledSubtrees;
    forall i | 0 <= i < t.depth
      ensures SubtreeFresh(hash, leafs', t.zeroValue, r.filledSubtrees[i], i)
    {
      FreshAtLevel(hash, t.leafs, j, v, t.zeroValue, i, t.filledSubtrees[i], r.filledSubtrees[i]);
    }
  }

  /**
   * One level of `UpdateFixedRefreshes`: the entry the corrected commit pass
   * leaves is fresh for the rewritten leaf row.
   */
  lemma FreshAtLevel(hash: PairHash, leafs: seq<int>, j: nat, v: int, zeroValue: int, level: nat, before: int, after: int)
    requires j < |leafs|
    requires SubtreeFresh(hash, leafs, zeroValue, before, level)
    requires after == if Ancestor(j, level) % 2 == 0 && Ancestor(j, level) + 1 == Ancestor(|leafs|, level)
                      then Node(hash, leafs[j := v], zeroValue, level, Ancestor(j, level))
                      else before
    ensures SubtreeFresh(hash, leafs[j := v], zeroValue, after, level)
  {
    var a := Ancestor(|leafs|, level);
    if a % 2 == 1 && Ancestor(j, level) != a - 1 {
      ReplaceFrame(hash, leafs, j, v, zeroValue, level, a - 1);
    }
  }

  /** The tree's own calls with the corrected `update`, stopping at the first exception. */
  function RunFixed(hash: PairHash, t: Tree, ops: seq<Op>): (r: Result<Tree>)
    requires Shaped(t)
    ensures r.Ok? ==> Shaped(r.value)
    decreases |ops|
  {
    if |ops| == 0 then Ok(t)
    else match ops[0]
      case InsertOp(leaf) => RunFixed(hash, Insert(hash, t, leaf), ops[1..])
      case UpdateOp(index, leaf) =>
        match UpdateFixed(hash, t, index, leaf)
        case Err(e) => Err(e)
        case Ok(u) => RunFixed(hash, u, ops[1..])
  }

  /**
   * With the corrected `update`, every legal history, inserts and updates
   * interleaved in any order, keeps a valid tree valid and ends at the
   * reference root of the replayed leaves.
   */
  lemma {:induction false} RunFixedKeepsValid(hash: PairHash, t: Tree, ops: seq<Op>)
    requires Valid(hash, t)
    requires Legal(t.nextIndex, Pow2(t.depth), ops)
    ensures RunFixed(hash, t, ops).Ok?
    ensures Valid(hash, RunFixed(hash, t, ops).value)
    ensures RunFixed(hash, t, ops).value.leafs == Replay(t.leafs, ops)
    ensures RunFixed(hash, t, ops).value.root == Root(hash, Replay(t.leafs, ops), t.zeroValue, t.depth)
    decreases |ops|
  {
    if |ops| > 0 {
      match ops[0]
      case InsertOp(leaf) =>
        InsertPreservesValid(hash, t, leaf);
        RunFixedKeepsValid(hash, Insert(hash, t, leaf), ops[1..]);
      case UpdateOp(index, leaf) =>
        UpdateFixedPreservesValid(hash, t, index, leaf);
        RunFixedKeepsValid(hash, UpdateFixed(hash, t, index, leaf).value, ops[1..]);
    }
  }

  /** The history of the counterexample, run with the corrected `update`, ends at the reference root. */
  lemma FixedHistoryReachesReferenceRoot(hash: PairHash)
    ensures Create(hash, 1, 0).Ok?
    ensures var r := RunFixed(hash, Create(hash, 1, 0).value, StaleHistory);
      r.Ok? && r.value.leafs == [5, 7] && r.value.root == hash(5, 7)
  {
    CreateValid(hash, 1, 0);
    StaleHistoryReplay();
    RunFixedKeepsValid(hash, Create(hash, 1, 0).value, StaleHistory);
    TwoLeafRoot(hash, 5, 7);
  }

  /** The counterexample history is legal on an empty tree of depth 1 and leaves `[5, 7]`. */
  lemma StaleHistoryReplay()
    ensures Legal(0, Pow2(1), StaleHistory)
    ensures Replay([], StaleHistory) == [5, 7]
  {
    var ops := StaleHistory;
    assert ops[1..] == [UpdateOp(0, 5), InsertOp(7)];
    assert ops[1..][1..] == [InsertOp(7)];
    assert ops[1..][1..][1..] == [];
  }

  /** A tree of depth 1 holding two leaves has their hash as its root. */
  lemma TwoLeafRoot(hash: PairHash, a: int, b: int)
    ensures Root(hash, [a, b], 0, 1) == hash(a, b)
  {
    assert Node(hash, [a, b], 0, 0, 0) == a && Node(hash, [a, b], 0, 0, 1) == b;
  }
}

=== FILE: history.dfy ===
/**
 * Sequences of calls on one tree. `Replay` is the reference meaning of a
 * history (a plain list of leaves); `Run` drives the tree's own `insert` and
 * `update` through it. For histories whose inserts all come before their
 * updates the two agree: the root is always the reference root of the
 * replayed leaves.
 */
module History {
  import opened Field
  import opened Reference
  import opened MerkleTree
  import opened Invariants

  /** One call on the tree: `insert(leaf)` or `update(index, leaf)`. */
  datatype Op = InsertOp(leaf: int) | UpdateOp(index: nat, leaf: int)

  /** The reference meaning of a history: append on insert, overwrite on update. */
  function Replay(leafs: seq<int>, ops: seq<Op>): (r: seq<int>)
    decreases |ops|
  {
    if |ops| == 0 then leafs
    else match ops[0]
      case InsertOp(leaf) => Replay(leafs + [leaf], ops[1..])
      case UpdateOp(index, leaf) =>
        Replay(if index < |leafs| then leafs[index := leaf] else leafs, ops[1..])
  }

  /**
   * Every call of the history is one the tree can serve, starting from `n`
   * leaves: inserts stay within the `capacity`, updates name an inserted leaf.
   */
  predicate Legal(n: nat, capacity: nat, ops: seq<Op>)
    decreases |ops|
  {
    |ops| == 0 ||
    match ops[0]
      case InsertOp(_) => n < capacity && Legal(n + 1, capacity, ops[1..])
      case UpdateOp(index, _) => index < n && Legal(n, capacity, ops[1..])
  }

  /** No insert follows an update. */
  predicate InsertsFirst(ops: seq<Op>)
  {
    forall a, b | 0 <= a < b < |ops| :: ops[a].UpdateOp? ==> ops[b].UpdateOp?
  }

  predicate NoInserts(ops: seq<Op>)
  {
    forall a | 0 <= a < |ops| :: ops[a].UpdateOp?
  }

  /** The tree's own calls, in order, stopping at the first exception. */
  function Run(hash: PairHash, t: Tree, ops: seq<Op>): (r: Result<Tree>)
    requires Shaped(t)
    ensures r.Ok? ==> Shaped(r.value)
    decreases |ops|
  {
    if |ops| == 0 then Ok(t)
    else match ops[0]
      case InsertOp(leaf) => Run(hash, Insert(hash, t, leaf), ops[1..])
      case UpdateOp(index, leaf) =>
        match Update(hash, t, index, leaf)
        case Err(e) => Err(e)
        case Ok(u) => Run(hash, u, ops[1..])
  }

  /**
   * A legal history whose inserts come first keeps a consistent tree
   * consistent, never throws, and leaves the reference root of the replayed
   * leaves. Inserts need the stored left subtrees fresh (`Valid`), which
   * holds until the first update.
   */
  lemma {:induction false} RunKeepsConsistent(hash: PairHash, t: Tree, ops: seq<Op>)
    requires Consistent(hash, t) && (Valid(hash, t) || NoInserts(ops))
    requires Legal(t.nextIndex, Pow2(t.depth), ops) && InsertsFirst(ops)
    ensures Run(hash, t, ops).Ok?
    ensures Consistent(hash, Run(hash, t, ops).value)
    ensures Run(hash, t, ops).value.leafs == Replay(t.leafs, ops)
    ensures Run(hash, t, ops).value.root == Root(hash, Replay(t.leafs, ops), t.zeroValue, t.depth)
    decreases |ops|
  {
    if |ops| > 0 {
      var rest := ops[1..];
      assert InsertsFirst(rest) by {
        forall a, b | 0 <= a < b < |rest| ensures rest[a].UpdateOp? ==> rest[b].UpdateOp? {
          assert rest[a] == ops[a + 1] && rest[b] == ops[b + 1];
        }
      }
      match ops[0]
      case InsertOp(leaf) =>
        assert !ops[0].UpdateOp?;
        InsertPreservesValid(hash, t, leaf);
        var u := Insert(hash, t, leaf);
        assert Valid(hash, u);
        RunKeepsConsistent(hash, u, rest);
      case UpdateOp(index, leaf) =>
        assert NoInserts(rest) by {
          forall a | 0 <= a < |rest| ensures rest[a].UpdateOp? {
            assert ops[0].UpdateOp? && rest[a] == ops[a + 1];
          }
        }
        UpdatePreservesConsistent(hash, t, index, leaf);
        var u := Update(hash, t, index, leaf).value;
        RunKeepsConsistent(hash, u, rest);
    }
  }

  /**
   * The full life cycle the source supports: construct, insert leaves
   * within capacity, then update inserted leaves; the root is the reference
   * root of the inserted leaves with the updates applied.
   */
  lemma CreateInsertUpdate(hash: PairHash, depth: nat, zeroValue: int, ops: seq<Op>)
    requires depth >= 1
    requires Legal(0, Pow2(depth), ops) && InsertsFirst(ops)
    ensures Create(hash, depth, zeroValue).Ok?
    ensures Run(hash, Create(hash, depth, zeroValue).value, ops).Ok?
    ensures Run(hash, Create(hash, depth, zeroValue).value, ops).value.leafs == Replay([], ops)
    ensures Run(hash, Create(hash, depth, zeroValue).value, ops).value.root
         == Root(hash, Replay([], ops), zeroValue, depth)
  {
    CreateValid(hash, depth, zeroValue);
    RunKeepsConsistent(hash, Create(hash, depth, zeroValue).value, ops);
  }
}

=== FILE: invariants.dfy ===
/**
 * What the tree's caches mean, and the proofs that `insert`, `getPath` and
 * `update` keep them meaning it: the root is always the reference root of
 * the leaves padded with `zeroValue` to `2^depth` leaves, every cached node
 * holds its true value, and the stored left subtrees are the ones the next
 * insertion will pair with.
 */
module Invariants {
  import opened Field
  import opened Reference
  import opened MerkleTree

  /** Every entry cached for `level` holds the true value of that node. */
  ghost predicate CacheExact(hash: PairHash, leafs: seq<int>, zeroValue: int, cache: map<nat, int>, level: nat)
  {
    forall x | x in cache :: cache[x] == Node(hash, leafs, zeroValue, level, x)
  }

  /**
   * When the next leaf's ancestor at `level` is a right child, the stored
   * subtree is the true value of its left sibling, which `insert` reads.
   */
  ghost predicate SubtreeFresh(hash: PairHash, leafs: seq<int>, zeroValue: int, subtree: int, level: nat)
  {
    var a := Ancestor(|leafs|, level);
    a % 2 == 1 ==> subtree == Node(hash, leafs, zeroValue, level, a - 1)
  }

  /**
   * The invariant `update` keeps: within capacity, the padding table and
   * every cached node are exact, and the root is the reference root.
   */
  ghost predicate Consistent(hash: PairHash, t: Tree)
  {
    && Shaped(t)
    && t.nextIndex <= Pow2(t.depth)
    && (forall i | 0 <= i < t.depth :: t.zeros[i] == ZeroHash(hash, t.zeroValue, i))
    && (forall i | 0 <= i < t.depth :: CacheExact(hash, t.leafs, t.zeroValue, t.filledPaths[i], i))
    && t.root == Root(hash, t.leafs, t.zeroValue, t.depth)
  }

  /** The invariant `insert` keeps: `Consistent`, and every stored left subtree is fresh. */
  ghost predicate Valid(hash: PairHash, t: Tree)
  {
    && Consistent(hash, t)
    && (forall i | 0 <= i < t.depth :: SubtreeFresh(hash, t.leafs, t.zeroValue, t.filledSubtrees[i], i))
  }

  /* ---------------------------------------------------------------------- */
  /* Construction                                                            */
  /* ---------------------------------------------------------------------- */

  lemma {:induction false} AncestorOfFirst(level: nat)
    ensures Ancestor(0, level) == 0
  {
    if level > 0 {
      AncestorOfFirst(level - 1);
    }
  }

  /**
   * A freshly constructed tree is valid: its root is the reference root of
   * `2^depth` copies of `zeroValue`.
   */
  lemma CreateValid(hash: PairHash, depth: nat, zeroValue: int)
    requires depth >= 1
    ensures Create(hash, depth, zeroValue).Ok?
    ensures Valid(hash, Create(hash, depth, zeroValue).value)
    ensures Create(hash, depth, zeroValue).value.root == ZeroHash(hash, zeroValue, depth)
  {
    var t := Create(hash, depth, zeroValue).value;
    forall i | 0 <= i < depth
      ensures SubtreeFresh(hash, t.leafs, zeroValue, t.filledSubtrees[i], i)
    {
      AncestorOfFirst(i);
    }
    EmptyRoot(hash, zeroValue, depth);
  }

  /* ---------------------------------------------------------------------- */
  /* insert                                                                  */
  /* ---------------------------------------------------------------------- */

  /**
   * One level of `insert` for leaf `|leafs|`: given exact caches and a fresh
   * subtree for the old leaves, it leaves them exact and fresh for the new
   * leaves and hashes up to the true parent.
   */
  lemma InsertStepKeeps(hash: PairHash, leafs: seq<int>, v: int, zeroValue: int, level: nat,
                        zero: int, subtree: int, cache: map<nat, int>, cur: int)
    requires zero == ZeroHash(hash, zeroValue, level)
    requires CacheExact(hash, leafs, zeroValue, cache, level)
    requires SubtreeFresh(hash, leafs, zeroValue, subtree, level)
    requires cur == Node(hash, leafs + [v], zeroValue, level, Ancestor(|leafs|, level))
    ensures var w := InsertStep(hash, zero, subtree, cache, Ancestor(|leafs|, level), cur);
      && CacheExact(hash, leafs + [v], zeroValue, w.cache, level)
      && SubtreeFresh(hash, leafs + [v], zeroValue, w.subtree, level)
      && w.hash == Node(hash, leafs + [v], zeroValue, level + 1, Ancestor(|leafs|, level + 1))
  {
    var c := Ancestor(|leafs|, level);
    var w := InsertStep(hash, zero, subtree, cache, c, cur);
    var _, _ := LeftSiblingValue(hash, leafs, v, zeroValue, level, zero, subtree);
    InsertCacheExact(hash, leafs, v, zeroValue, level, zero, subtree, cache, cur);
    InsertSubtreeFresh(hash, leafs, v, zeroValue, level, subtree, cur);
    Climb(hash, leafs + [v], zeroValue, level, c);
    assert w.hash == Combine(hash, c, cur, if c % 2 == 0 then zero else subtree);
  }

  /**
   * The value the insert step pairs the new node with is its true sibling:
   * padding on the right of a left child, the stored subtree on the left of a
   * right child.
   */
  lemma LeftSiblingValue(hash: PairHash, leafs: seq<int>, v: int, zeroValue: int, level: nat, zero: int, subtree: int)
    returns (c: nat, s: int)
    requires zero == ZeroHash(hash, zeroValue, level)
    requires SubtreeFresh(hash, leafs, zeroValue, subtree, level)
    ensures c == Ancestor(|leafs|, level)
    ensures s == (if c % 2 == 0 then zero else subtree)
    ensures s == Node(hash, leafs + [v], zeroValue, level, Sibling(c))
  {
    c := Ancestor(|leafs|, level);
    if c % 2 == 0 {
      s := zero;
      PaddingNode(hash, leafs + [v], zeroValue, level, c + 1);
    } else {
      s := subtree;
      AppendFrame(hash, leafs, v, zeroValue, level, c - 1);
    }
  }

  lemma InsertCacheExact(hash: PairHash, leafs: seq<int>, v: int, zeroValue: int, level: nat,
                         zero: int, subtree: int, cache: map<nat, int>, cur: int)
    requires zero == ZeroHash(hash, zeroValue, level)
    requires CacheExact(hash, leafs, zeroValue, cache, level)
    requires SubtreeFresh(hash, leafs, zeroValue, subtree, level)
    requires cur == Node(hash, leafs + [v], zeroValue, level, Ancestor(|leafs|, level))
    ensures CacheExact(hash, leafs + [v], zeroValue, InsertStep(hash, zero, subtree, cache, Ancestor(|leafs|, level), cur).cache, level)
  {
    var c := Ancestor(|leafs|, level);
    var cache' := InsertStep(hash, zero, subtree, cache, c, cur).cache;
    var _, s := LeftSiblingValue(hash, leafs, v, zeroValue, level, zero, subtree);
    assert cache' == cache[c := cur][Sibling(c) := s];
    forall x | x in cache'
      ensures cache'[x] == Node(hash, leafs + [v], zeroValue, level, x)
    {
      if x != c && x != Sibling(c) {
        AppendFrame(hash, leafs, v, zeroValue, level, x);
      }
    }
  }

  lemma InsertSubtreeFresh(hash: PairHash, leafs: seq<int>, v: int, zeroValue: int, level: nat,
                           subtree: int, cur: int)
    requires SubtreeFresh(hash, leafs, zeroValue, subtree, level)
    requires cur == Node(hash, leafs + [v], zeroValue, level, Ancestor(|leafs|, level))
    ensures var c := Ancestor(|leafs|, level);
      SubtreeFresh(hash, leafs + [v], zeroValue, if c % 2 == 0 then cur else subtree, level)
  {
    var c := Ancestor(|leafs|, level);
    AncestorOfSuccessor(|leafs|, level);
    assert |leafs + [v]| == |leafs| + 1;
    if c % 2 == 1 {
      AppendFrame(hash, leafs, v, zeroValue, level, c - 1);
    }
  }

  /** Every level of a tree, checked against a given leaf row. */
  ghost predicate LevelOk(hash: PairHash, leafs: seq<int>, zeroValue: int, subtree: int, cache: map<nat, int>, level: nat)
  {
    CacheExact(hash, leafs, zeroValue, cache, level) && SubtreeFresh(hash, leafs, zeroValue, subtree, level)
  }

  /**
   * `insert`'s loop from `level` upward: levels below `level` already agree
   * with the new leaf row, levels from `level` on still with the old one;
   * afterwards all agree with the new row and the root is the new node at the top.
   */
  lemma {:induction false} InsertLevelsKeep(hash: PairHash, t: Tree, v: int, level: nat, c: nat, cur: int)
    requires |t.zeros| == t.depth && |t.filledSubtrees| == t.depth && |t.filledPaths| == t.depth
    requires level <= t.depth
    requires forall i | 0 <= i < t.depth :: t.zeros[i] == ZeroHash(hash, t.zeroValue, i)
    requires c == Ancestor(|t.leafs|, level)
    requires cur == Node(hash, t.leafs + [v], t.zeroValue, level, c)
    requires forall i | 0 <= i < level ::
      LevelOk(hash, t.leafs + [v], t.zeroValue, t.filledSubtrees[i], t.filledPaths[i], i)
    requires forall i | level <= i < t.depth ::
      LevelOk(hash, t.leafs, t.zeroValue, t.filledSubtrees[i], t.filledPaths[i], i)
    ensures var r := InsertLevels(hash, t, level, c, cur);
      && (forall i | 0 <= i < t.depth :: LevelOk(hash, t.leafs + [v], t.zeroValue, r.filledSubtrees[i], r.filledPaths[i], i))
      && r.root == Node(hash, t.leafs + [v], t.zeroValue, t.depth, Ancestor(|t.leafs|, t.depth))
    decreases t.depth - level
  {
    if level < t.depth {
      var w := InsertStep(hash, t.zeros[level], t.filledSubtrees[level], t.filledPaths[level], c, cur);
      InsertStepKeeps(hash, t.leafs, v, t.zeroValue, level, t.zeros[level], t.filledSubtrees[level], t.filledPaths[level], cur);
      var t' := t.(filledSubtrees := t.filledSubtrees[level := w.subtree],
                   filledPaths := t.filledPaths[level := w.cache]);
      InsertLevelsKeep(hash, t', v, level + 1, c / 2, w.hash);
    }
  }

  /**
   * Within capacity, `insert` keeps the tree valid: afterwards the root is
   * the reference root of the extended leaf row, and every cache still holds
   * true node values.
   */
  lemma InsertPreservesValid(hash: PairHash, t: Tree, leaf: int)
    requires Valid(hash, t)
    requires t.nextIndex < Pow2(t.depth)
    ensures Valid(hash, Insert(hash, t, leaf))
    ensures Insert(hash, t, leaf).root == Root(hash, t.leafs + [leaf], t.zeroValue, t.depth)
  {
    var n := t.nextIndex;
    var t0 := t.(nextIndex := n + 1);
    InsertLevelsKeep(hash, t0, leaf, 0, n, leaf);
    AncestorAtTop(n, t.depth);
  }

  /* ---------------------------------------------------------------------- */
  /* getPath                                                                 */
  /* ---------------------------------------------------------------------- */

  /**
   * In a consistent tree, `getPath(j)` lists the true sibling of leaf `j`'s
   * ancestor at every level, and folding leaf `j` with it, even index on the
   * left and odd on the right, gives the current root.
   */
  lemma PathFoldsToRoot(hash: PairHash, t: Tree, j: nat)
    requires Consistent(hash, t) && j < t.nextIndex
    ensures forall i | 0 <= i < t.depth ::
      GetPath(t, j)[i] == Node(hash, t.leafs, t.zeroValue, i, Sibling(Ancestor(j, i)))
    ensures TrueSiblings(hash, t.leafs, t.zeroValue, j, 0, GetPath(t, j))
    ensures Fold(hash, j, t.leafs[j], GetPath(t, j)) == t.root
  {
    PathEntries(hash, t, j);
    TrueSiblingsFromLeaf(hash, t.leafs, t.zeroValue, j, GetPath(t, j));
    FoldFromLeaf(hash, t.leafs, t.zeroValue, j, GetPath(t, j));
  }

  lemma PathEntries(hash: PairHash, t: Tree, j: nat)
    requires Consistent(hash, t) && j < t.nextIndex
    ensures forall i | 0 <= i < t.depth ::
      GetPath(t, j)[i] == Node(hash, t.leafs, t.zeroValue, i, Sibling(Ancestor(j, i)))
  {
    var path := GetPath(t, j);
    forall i | 0 <= i < t.depth
      ensures path[i] == Node(hash, t.leafs, t.zeroValue, i, Sibling(Ancestor(j, i)))
    {
      assert Cached(t.filledPaths[i], Ancestor(j, i));
    }
  }

  /* ---------------------------------------------------------------------- */
  /* update                                                                  */
  /* ---------------------------------------------------------------------- */

  /**
   * One level of the commit pass for leaf `j`: with the true sibling it
   * leaves the level's cache exact for the rewritten leaf row and hashes up
   * to the true parent.
   */
  lemma CommitStepKeeps(hash: PairHash, leafs: seq<int>, j: nat, v: int, zeroValue: int, level: nat,
                        cache: map<nat, int>, cur: int, sibling: int)
    requires j < |leafs|
    requires CacheExact(hash, leafs, zeroValue, cache, level)
    requires cur == Node(hash, leafs[j := v], zeroValue, level, Ancestor(j, level))
    requires sibling == Node(hash, leafs, zeroValue, level, Sibling(Ancestor(j, level)))
    ensures var w := CommitStep(hash, cache, Ancestor(j, level), cur, sibling);
      && CacheExact(hash, leafs[j := v], zeroValue, w.cache, level)
      && w.hash == Node(hash, leafs[j := v], zeroValue, level + 1, Ancestor(j, level + 1))
  {
    var leafs' := leafs[j := v];
    var c := Ancestor(j, level);
    ReplaceFrame(hash, leafs, j, v, zeroValue, level, Sibling(c));
    Climb(hash, leafs', zeroValue, level, c);
    forall x | x in cache && x != c
      ensures cache[x] == Node(hash, leafs', zeroValue, level, x)
    {
      ReplaceFrame(hash, leafs, j, v, zeroValue, level, x);
    }
  }

  /** The commit pass from `level` upward leaves every level's cache exact for the new leaf row. */
  lemma {:induction false} CommitLevelsKeep(hash: PairHash, t: Tree, path: seq<int>, j: nat, v: int, level: nat, c: nat, cur: int)
    requires |t.filledPaths| == t.depth && |path| >= t.depth && level <= t.depth
    requires j < |t.leafs|
    requires c == Ancestor(j, level)
    requires cur == Node(hash, t.leafs[j := v], t.zeroValue, level, c)
    requires forall i | 0 <= i < level :: CacheExact(hash, t.leafs[j := v], t.zeroValue, t.filledPaths[i], i)
    requires forall i | level <= i < t.depth :: CacheExact(hash, t.leafs, t.zeroValue, t.filledPaths[i], i)
    requires forall i | level <= i < t.depth :: path[i] == Node(hash, t.leafs, t.zeroValue, i, Sibling(Ancestor(j, i)))
    ensures var r := CommitLevels(hash, t, path, level, c, cur);
      forall i | 0 <= i < t.depth :: CacheExact(hash, t.leafs[j := v], t.zeroValue, r.filledPaths[i], i)
    decreases t.depth - level
  {
    if level < t.depth {
      var w := CommitStep(hash, t.filledPaths[level], c, cur, path[level]);
      CommitStepKeeps(hash, t.leafs, j, v, t.zeroValue, level, t.filledPaths[level], cur, path[level]);
      var t' := t.(filledPaths := t.filledPaths[level := w.cache]);
      assert c / 2 == Ancestor(j, level + 1);
      forall i | 0 <= i < level + 1
        ensures CacheExact(hash, t.leafs[j := v], t.zeroValue, t'.filledPaths[i], i)
      {
        if i < level {
          assert t'.filledPaths[i] == t.filledPaths[i];
        }
      }
      CommitLevelsKeep(hash, t', path, j, v, level + 1, c / 2, w.hash);
      var r := CommitLevels(hash, t, path, level, c, cur);
      assert r == CommitLevels(hash, t', path, level + 1, c / 2, w.hash);
      assert forall i | 0 <= i < t'.depth :: CacheExact(hash, t'.leafs[j := v], t'.zeroValue, r.filledPaths[i], i);
      assert t'.leafs == t.leafs;
    }
  }

  /**
   * `update(j, v)` on a consistent tree never throws for an inserted leaf,
   * keeps the tree consistent, and its new root is the reference root of the
   * leaf row with leaf `j` replaced by `v`.
   */
  lemma UpdatePreservesConsistent(hash: PairHash, t: Tree, j: nat, v: int)
    requires Consistent(hash, t) && j < t.nextIndex
    ensures Update(hash, t, j, v).Ok?
    ensures Consistent(hash, Update(hash, t, j, v).value)
    ensures Update(hash, t, j, v).value.root == Root(hash, t.leafs[j := v], t.zeroValue, t.depth)
  {
    var path := GetPath(t, j);
    var leafs' := t.leafs[j := v];
    PathEntries(hash, t, j);
    forall i | 0 <= i < |path|
      ensures path[i] == Node(hash, leafs', t.zeroValue, i, Sibling(Ancestor(j, i)))
    {
      ReplaceFrame(hash, t.leafs, j, v, t.zeroValue, i, Sibling(Ancestor(j, i)));
    }
    TrueSiblingsFromLeaf(hash, leafs', t.zeroValue, j, path);
    FoldFromLeaf(hash, leafs', t.zeroValue, j, path);
    PathFoldsToRoot(hash, t, j);
    assert path[..t.depth] == path;
    var r := Update(hash, t, j, v);
    assert r == UpdateWithPath(hash, t, j, v, path);
    assert r.value.filledPaths == CommitLevels(hash, t, path, 0, j, v).filledPaths;
    assert Node(hash, leafs', t.zeroValue, 0, Ancestor(j, 0)) == v;
    CommitLevelsKeep(hash, t, path, j, v, 0, j, v);
  }

  /** A commit step that writes the values a level already caches rewrites nothing. */
  lemma CommitStepNoop(hash: PairHash, cache: map<nat, int>, c: nat, cur: int, sibling: int)
    requires Cached(cache, c) && cache[c] == cur && cache[Sibling(c)] == sibling
    ensures var w := CommitStep(hash, cache, c, cur, sibling);
      w.cache == cache && w.hash == Combine(hash, c, cur, sibling)
  {
  }

  /**
   * The commit pass writes back only values the caches already hold when it
   * carries the true node values and true siblings of leaf `j`.
   */
  lemma {:induction false} CommitLevelsNoop(hash: PairHash, t: Tree, path: seq<int>, j: nat, level: nat, c: nat, cur: int)
    requires |t.filledPaths| == t.depth && |path| >= t.depth && level <= t.depth
    requires c == Ancestor(j, level)
    requires cur == Node(hash, t.leafs, t.zeroValue, level, c)
    requires forall i | level <= i < t.depth ::
      && Cached(t.filledPaths[i], Ancestor(j, i))
      && t.filledPaths[i][Ancestor(j, i)] == Node(hash, t.leafs, t.zeroValue, i, Ancestor(j, i))
      && t.filledPaths[i][Sibling(Ancestor(j, i))] == path[i]
    requires forall i | level <= i < t.depth :: path[i] == Node(hash, t.leafs, t.zeroValue, i, Sibling(Ancestor(j, i)))
    ensures CommitLevels(hash, t, path, level, c, cur).filledPaths == t.filledPaths
    decreases t.depth - level
  {
    if level < t.depth {
      var w := CommitStep(hash, t.filledPaths[level], c, cur, path[level]);
      CommitStepNoop(hash, t.filledPaths[level], c, cur, path[level]);
      Climb(hash, t.leafs, t.zeroValue, level, c);
      assert t.(filledPaths := t.filledPaths[level := w.cache]) == t;
      CommitLevelsNoop(hash, t, path, j, level + 1, c / 2, w.hash);
    }
  }

  /**
   * Rewriting a leaf with its own value is a no-op: the result is the very
   * same tree, root, caches and all.
   */
  lemma UpdateSameLeafIsIdentity(hash: PairHash, t: Tree, j: nat)
    requires Consistent(hash, t) && j < t.nextIndex
    ensures Update(hash, t, j, t.leafs[j]) == Ok(t)
  {
    var path := GetPath(t, j);
    PathFoldsToRoot(hash, t, j);
    assert path[..t.depth] == path;
    assert Node(hash, t.leafs, t.zeroValue, 0, Ancestor(j, 0)) == t.leafs[j];
    forall i | 0 <= i < t.depth
      ensures Cached(t.filledPaths[i], Ancestor(j, i))
      ensures t.filledPaths[i][Ancestor(j, i)] == Node(hash, t.leafs, t.zeroValue, i, Ancestor(j, i))
      ensures t.filledPaths[i][Sibling(Ancestor(j, i))] == path[i]
    {
      assert Cached(t.filledPaths[i], Ancestor(j, i));
    }
    CommitLevelsNoop(hash, t, path, j, 0, j, t.leafs[j]);
    var c := CommitLevels(hash, t, path, 0, j, t.leafs[j]);
    assert t.leafs[j := t.leafs[j]] == t.leafs;
    assert c.(leafs := t.leafs) == t;
    assert Update(hash, t, j, t.leafs[j]) == UpdateWithPath(hash, t, j, t.leafs[j], path);
  }
}

=== FILE: merkle_tree.dfy ===
/**
 * The off-chain incremental Merkle tree of `app/utils/merkletree.js`, as an
 * immutable record and pure operations over it.
 *
 * The JavaScript object tables `zeros`, `filledSubtrees` and `filledPaths`,
 * keyed by level `0 .. depth-1`, are sequences of length `depth`;
 * `filledPaths[i]` itself is a sparse map from node index to node value.
 * Where the source throws, the operation returns `Err`.
 */
module MerkleTree {
  import opened Field
  import opened Reference

  datatype Tree = Tree(
    depth: nat,
    zeroValue: int,
    zeros: seq<int>,
    filledSubtrees: seq<int>,
    filledPaths: seq<map<nat, int>>,
    leafs: seq<int>,
    root: int,
    nextIndex: nat)

  /** Why an operation throws. */
  datatype TreeError =
    /** `_update`'s verification pass did not reproduce the stored root. */
    | RootMismatch
    /**
     * A missing table entry (`undefined`) reached the BigInt arithmetic of
     * `hashLeftRight`, which raises a `TypeError`.
     */
    | UndefinedOperand

  datatype Result<+T> = Ok(value: T) | Err(error: TreeError)

  /** The node at index `c` of a level map is cached, and so is its sibling. */
  predicate Cached(level: map<nat, int>, c: nat)
  {
    c in level && Sibling(c) in level
  }

  /**
   * The shape every tree built by `Create` keeps: tables of one entry per
   * level, one leaf per used slot, and for every inserted leaf the cached
   * ancestors and ancestor siblings that `getPath` reads.
   */
  ghost predicate Shaped(t: Tree)
  {
    && t.depth >= 1
    && |t.zeros| == t.depth
    && |t.filledSubtrees| == t.depth
    && |t.filledPaths| == t.depth
    && t.nextIndex == |t.leafs|
    && forall i, j | 0 <= i < t.depth && 0 <= j < t.nextIndex :: Cached(t.filledPaths[i], Ancestor(j, i))
  }

  /* ---------------------------------------------------------------------- */
  /* Construction                                                            */
  /* ---------------------------------------------------------------------- */

  /** The constructor's loop filling the padding table `zeros[0 .. depth)`. */
  function ZeroLevels(hash: PairHash, zeroValue: int, depth: nat): (zs: seq<int>)
    requires depth >= 1
    ensures |zs| == depth
    ensures forall i | 0 <= i < depth :: zs[i] == ZeroHash(hash, zeroValue, i)
  {
    if depth == 1 then [zeroValue]
    else
      var below := ZeroLevels(hash, zeroValue, depth - 1);
      below + [hash(below[depth - 2], below[depth - 2])]
  }

  /**
   * `new MerkleTree(depth, zeroValue)`, also reached through
   * `createMerkleTree`. With depth 0 the constructor reads `zeros[-1]` and
   * throws.
   */
  function Create(hash: PairHash, depth: nat, zeroValue: int): (r: Result<Tree>)
    ensures r.Ok? <==> depth >= 1
    ensures r.Err? ==> r.error == UndefinedOperand
    ensures r.Ok? ==>
      && Shaped(r.value)
      && r.value.depth == depth && r.value.zeroValue == zeroValue
      && r.value.leafs == [] && r.value.nextIndex == 0
      && r.value.zeros[0] == zeroValue
      && (forall i | 1 <= i < depth :: r.value.zeros[i] == hash(r.value.zeros[i - 1], r.value.zeros[i - 1]))
      && r.value.filledSubtrees == r.value.zeros
      && r.value.root == Root(hash, [], zeroValue, depth)
  {
    if depth == 0 then Err(UndefinedOperand)
    else
      var zs := ZeroLevels(hash, zeroValue, depth);
      EmptyRoot(hash, zeroValue, depth);
      Ok(Tree(depth, zeroValue, zs, zs, seq(depth, _ => map[]),
              [], hash(zs[depth - 1], zs[depth - 1]), 0))
  }

  /* ---------------------------------------------------------------------- */
  /* insert                                                                  */
  /* ---------------------------------------------------------------------- */

  /** What one level of `insert` leaves behind. */
  datatype LevelWrite = LevelWrite(subtree: int, cache: map<nat, int>, hash: int)

  /**
   * One iteration of `insert`'s loop at a level with padding value `zero`:
   * a left child closes the level's subtree and pairs with padding, a right
   * child pairs with the stored left subtree.
   */
  function InsertStep(hash: PairHash, zero: int, subtree: int, cache: map<nat, int>, c: nat, cur: int): (w: LevelWrite)
  {
    if c % 2 == 0 then
      LevelWrite(cur, cache[c := cur][c + 1 := zero], hash(cur, zero))
    else
      LevelWrite(subtree, cache[c - 1 := subtree][c := cur], hash(subtree, cur))
  }

  /**
   * `insert`'s loop from `level` upward, with `c` the current index and `cur`
   * the current hash; the last hash becomes the root.
   */
  function InsertLevels(hash: PairHash, t: Tree, level: nat, c: nat, cur: int): (r: Tree)
    requires |t.zeros| == t.depth && |t.filledSubtrees| == t.depth && |t.filledPaths| == t.depth
    requires level <= t.depth
    ensures r.depth == t.depth && r.zeroValue == t.zeroValue && r.zeros == t.zeros
    ensures r.leafs == t.leafs && r.nextIndex == t.nextIndex
    ensures |r.filledSubtrees| == t.depth && |r.filledPaths| == t.depth
    ensures forall i | 0 <= i < level :: r.filledPaths[i] == t.filledPaths[i] && r.filledSubtrees[i] == t.filledSubtrees[i]
    ensures forall i | level <= i < t.depth :: t.filledPaths[i].Keys <= r.filledPaths[i].Keys
    ensures forall d | 0 <= d < t.depth - level :: Cached(r.filledPaths[level + d], Ancestor(c, d))
    decreases t.depth - level
  {
    if level == t.depth then t.(root := cur)
    else
      var w := InsertStep(hash, t.zeros[level], t.filledSubtrees[level], t.filledPaths[level], c, cur);
      var t' := t.(filledSubtrees := t.filledSubtrees[level := w.subtree],
                   filledPaths := t.filledPaths[level := w.cache]);
      var r := InsertLevels(hash, t', level + 1, c / 2, w.hash);
      assert forall d | 0 <= d < t.depth - level :: Cached(r.filledPaths[level + d], Ancestor(c, d)) by {
        forall d | 0 <= d < t.depth - level
          ensures Cached(r.filledPaths[level + d], Ancestor(c, d))
        {
          if d > 0 {
            AncestorOfHalf(c, d - 1);
            assert Cached(r.filledPaths[(level + 1) + (d - 1)], Ancestor(c / 2, d - 1));
          }
        }
      }
      r
  }

  /**
   * `insert(leaf)`: claim slot `nextIndex`, walk the levels, store the new
   * root and append the leaf. There is no capacity check: past `2^depth`
   * leaves the walk still runs and produces a root of no meaning.
   */
  function Insert(hash: PairHash, t: Tree, leaf: int): (r: Tree)
    requires Shaped(t)
    ensures Shaped(r)
    ensures r.nextIndex == t.nextIndex + 1
    ensures r.leafs == t.leafs + [leaf]
    ensures r.depth == t.depth && r.zeroValue == t.zeroValue && r.zeros == t.zeros
  {
    var n := t.nextIndex;
    var r := InsertLevels(hash, t.(nextIndex := n + 1), 0, n, leaf).(leafs := t.leafs + [leaf]);
    assert forall i, j | 0 <= i < r.depth && 0 <= j < r.nextIndex :: Cached(r.filledPaths[i], Ancestor(j, i)) by {
      forall i, j | 0 <= i < r.depth && 0 <= j < r.nextIndex
        ensures Cached(r.filledPaths[i], Ancestor(j, i))
      {
        if j < n {
          assert Cached(t.filledPaths[i], Ancestor(j, i));
        } else {
          assert Cached(r.filledPaths[0 + i], Ancestor(n, i));
        }
      }
    }
    r
  }

  /* ---------------------------------------------------------------------- */
  /* getPath                                                                 */
  /* ---------------------------------------------------------------------- */

  /**
   * `getPath(j)`: the cached sibling of leaf `j`'s ancestor at every level,
   * bottom first.
   */
  function GetPath(t: Tree, j: nat): (path: seq<int>)
    requires Shaped(t) && j < t.nextIndex
    ensures |path| == t.depth
    ensures forall i | 0 <= i < t.depth :: path[i] in t.filledPaths[i].Values
  {
    seq(t.depth, i requires 0 <= i < t.depth => t.filledPaths[i][Sibling(Ancestor(j, i))])
  }

  /* ---------------------------------------------------------------------- */
  /* _update and update                                                      */
  /* ---------------------------------------------------------------------- */

  /** What one level of the commit pass leaves behind: the level's cache and the parent's hash. */
  datatype CommitWrite = CommitWrite(cache: map<nat, int>, hash: int)

  /** One iteration of the commit pass: write the node and the given sibling. */
  function CommitStep(hash: PairHash, cache: map<nat, int>, c: nat, cur: int, sibling: int): (w: CommitWrite)
  {
    var written := if c % 2 == 0 then cache[c := cur][c + 1 := sibling] else cache[c - 1 := sibling][c := cur];
    CommitWrite(written, Combine(hash, c, cur, sibling))
  }

  /**
   * The commit pass of `_update` from `level` upward: rewrite the cached
   * node and sibling at each level and install the last hash as the root.
   */
  function CommitLevels(hash: PairHash, t: Tree, path: seq<int>, level: nat, c: nat, cur: int): (r: Tree)
    requires |t.filledPaths| == t.depth && |path| >= t.depth && level <= t.depth
    ensures r.depth == t.depth && r.zeroValue == t.zeroValue && r.zeros == t.zeros
    ensures r.filledSubtrees == t.filledSubtrees
    ensures r.leafs == t.leafs && r.nextIndex == t.nextIndex
    ensures |r.filledPaths| == t.depth
    ensures r.root == Fold(hash, c, cur, path[level..t.depth])
    ensures forall i | 0 <= i < level :: r.filledPaths[i] == t.filledPaths[i]
    ensures forall i | level <= i < t.depth :: t.filledPaths[i].Keys <= r.filledPaths[i].Keys
    ensures forall d | 0 <= d < t.depth - level ::
      Cached(r.filledPaths[level + d], Ancestor(c, d))
      && r.filledPaths[level + d][Sibling(Ancestor(c, d))] == path[level + d]
    decreases t.depth - level
  {
    if level == t.depth then t.(root := cur)
    else
      var w := CommitStep(hash, t.filledPaths[level], c, cur, path[level]);
      var t' := t.(filledPaths := t.filledPaths[level := w.cache]);
      var r := CommitLevels(hash, t', path, level + 1, c / 2, w.hash);
      assert path[level..t.depth][1..] == path[level + 1..t.depth];
      assert forall d | 0 <= d < t.depth - level ::
          Cached(r.filledPaths[level + d], Ancestor(c, d))
          && r.filledPaths[level + d][Sibling(Ancestor(c, d))] == path[level + d] by {
        forall d | 0 <= d < t.depth - level
          ensures Cached(r.filledPaths[level + d], Ancestor(c, d))
          ensures r.filledPaths[level + d][Sibling(Ancestor(c, d))] == path[level + d]
        {
          if d > 0 {
            AncestorOfHalf(c, d - 1);
            assert (level + 1) + (d - 1) == level + d;
          }
        }
      }
      r
  }

  /**
   * `_update(leafIndex, leaf, path)`: a verification pass folds the stored
   * leaf with `path` and throws unless it reproduces the root; only then does
   * the commit pass fold the new leaf with the same path and write.
   * A missing leaf or a path shorter than `depth` puts `undefined` into
   * `hashLeftRight` during the verification pass, which throws.
   */
  function UpdateWithPath(hash: PairHash, t: Tree, leafIndex: nat, leaf: int, path: seq<int>): (r: Result<Tree>)
    requires Shaped(t)
    ensures r.Ok? <==>
      leafIndex < |t.leafs| && |path| >= t.depth && Fold(hash, leafIndex, t.leafs[leafIndex], path[..t.depth]) == t.root
    ensures r.Err? ==>
      (r.error == RootMismatch <==> leafIndex < |t.leafs| && |path| >= t.depth)
    ensures r.Ok? ==>
      && Shaped(r.value)
      && r.value.leafs == t.leafs[leafIndex := leaf]
      && r.value.nextIndex == t.nextIndex
      && r.value.depth == t.depth && r.value.zeroValue == t.zeroValue && r.value.zeros == t.zeros
      && r.value.filledSubtrees == t.filledSubtrees
      && r.value.root == Fold(hash, leafIndex, leaf, path[..t.depth])
      && (forall i | 0 <= i < t.depth :: r.value.filledPaths[i][Sibling(Ancestor(leafIndex, i))] == path[i])
  {
    if leafIndex >= |t.leafs| || |path| < t.depth then Err(UndefinedOperand)
    else if Fold(hash, leafIndex, t.leafs[leafIndex], path[..t.depth]) != t.root then Err(RootMismatch)
    else
      var c := CommitLevels(hash, t, path, 0, leafIndex, leaf);
      var r := c.(leafs := t.leafs[leafIndex := leaf]);
      assert path[0..t.depth] == path[..t.depth];
      assert forall i, j | 0 <= i < r.depth && 0 <= j < r.nextIndex :: Cached(r.filledPaths[i], Ancestor(j, i)) by {
        forall i, j | 0 <= i < r.depth && 0 <= j < r.nextIndex
          ensures Cached(r.filledPaths[i], Ancestor(j, i))
        {
          assert Cached(t.filledPaths[i], Ancestor(j, i));
        }
      }
      assert forall i | 0 <= i < t.depth :: r.filledPaths[i][Sibling(Ancestor(leafIndex, i))] == path[i] by {
        forall i | 0 <= i < t.depth
          ensures r.filledPaths[i][Sibling(Ancestor(leafIndex, i))] == path[i]
        {
          assert r.filledPaths[0 + i][Sibling(Ancestor(leafIndex, i))] == path[0 + i];
        }
      }
      Ok(r)
  }

  /**
   * `update(leafIndex, leaf)`: `_update` with the path `getPath` returns.
   * For an index past the last leaf `getPath` yields `undefined` entries and
   * `_update` throws on the missing leaf.
   */
  function Update(hash: PairHash, t: Tree, leafIndex: nat, leaf: int): (r: Result<Tree>)
    requires Shaped(t)
    ensures leafIndex >= t.nextIndex ==> r == Err(UndefinedOperand)
    ensures r.Ok? ==>
      && Shaped(r.value)
      && r.value.leafs == t.leafs[leafIndex := leaf]
      && r.value.nextIndex == t.nextIndex
      && r.value.depth == t.depth && r.value.zeroValue == t.zeroValue && r.value.zeros == t.zeros
      && r.value.filledSubtrees == t.filledSubtrees
      && r.value.root == Fold(hash, leafIndex, leaf, GetPath(t, leafIndex))
      && GetPath(r.value, leafIndex) == GetPath(t, leafIndex)
  {
    if leafIndex >= t.nextIndex then Err(UndefinedOperand)
    else
      var path := GetPath(t, leafIndex);
      assert path[..t.depth] == path;
      UpdateWithPath(hash, t, leafIndex, leaf, path)
  }
}

=== FILE: reference.dfy ===
/**
 * Reference semantics of a fixed-depth Merkle tree: the value of every node
 * when the leaf list is padded with `zeroValue` to `2^depth` leaves and hashed
 * bottom-up with a pairwise hash. The incremental tree is proved against these
 * definitions; nothing here is cached or incremental.
 */
module Reference {
  import opened Field

  /**
   * The index, at `level`, of the node whose subtree holds leaf `j`: the
   * value of `curIdx` after `level` halvings in the tree's walks (`j >> level`).
   */
  function Ancestor(j: nat, level: nat): (r: nat)
  {
    if level == 0 then j else Ancestor(j, level - 1) / 2
  }

  /** The other child of the same parent (`c xor 1`). */
  function Sibling(c: nat): (s: nat)
    ensures s != c && s / 2 == c / 2
    ensures s % 2 != c % 2
  {
    if c % 2 == 0 then c + 1 else c - 1
  }

  /** Leaf `k` of the padded leaf row. */
  function Leaf(leafs: seq<int>, zeroValue: int, k: nat): (r: int)
  {
    if k < |leafs| then leafs[k] else zeroValue
  }

  /** The value of a subtree of height `level` whose leaves are all padding. */
  function ZeroHash(hash: PairHash, zeroValue: int, level: nat): (r: int)
  {
    if level == 0 then zeroValue
    else
      var below := ZeroHash(hash, zeroValue, level - 1);
      hash(below, below)
  }

  /** The value of node `index` at `level` of the padded tree. */
  function Node(hash: PairHash, leafs: seq<int>, zeroValue: int, level: nat, index: nat): (r: int)
  {
    if level == 0 then Leaf(leafs, zeroValue, index)
    else
      hash(Node(hash, leafs, zeroValue, level - 1, 2 * index),
           Node(hash, leafs, zeroValue, level - 1, 2 * index + 1))
  }

  /** The root of `leafs` padded with `zeroValue` to `2^depth` leaves. */
  function Root(hash: PairHash, leafs: seq<int>, zeroValue: int, depth: nat): (r: int)
  {
    Node(hash, leafs, zeroValue, depth, 0)
  }

  /**
   * The even-left / odd-right rule: combine the value of node `c` with the
   * value of its sibling into the value of their parent.
   */
  function Combine(hash: PairHash, c: nat, cur: int, sibling: int): (r: int)
  {
    if c % 2 == 0 then hash(cur, sibling) else hash(sibling, cur)
  }

  /** Folding a leaf with a Merkle witness, from the leaf level upward. */
  function Fold(hash: PairHash, c: nat, cur: int, path: seq<int>): (r: int)
    decreases |path|
  {
    if |path| == 0 then cur
    else Fold(hash, c / 2, Combine(hash, c, cur, path[0]), path[1..])
  }

  /* ---------------------------------------------------------------------- */
  /* Index arithmetic                                                        */
  /* ---------------------------------------------------------------------- */

  /** Halving `level` times is the shift `j >> level`, that is `j / 2^level`. */
  lemma {:induction false} AncestorIsShift(j: nat, level: nat)
    ensures Ancestor(j, level) == j / Pow2(level)
  {
    if level > 0 {
      AncestorIsShift(j, level - 1);
      DivTwice(j, Pow2(level - 1));
    }
  }

  lemma DivTwice(a: nat, d: nat)
    requires d > 0
    ensures (a / d) / 2 == a / (2 * d)
  {
    var q := a / d;
    var r := a % d;
    assert a == q * d + r;
    var q2 := q / 2;
    var b := q % 2;
    assert q == 2 * q2 + b;
    assert a == q2 * (2 * d) + (b * d + r) by {
      assert q * d == (2 * q2 + b) * d;
      assert (2 * q2 + b) * d == q2 * (2 * d) + b * d;
    }
    assert 0 <= b * d + r < 2 * d;
    DivUnique(a, 2 * d, q2, b * d + r);
  }

  /** Climbing is additive: `(j >> a) >> b == j >> (a + b)`. */
  lemma {:induction false} AncestorOfAncestor(j: nat, a: nat, b: nat)
    ensures Ancestor(Ancestor(j, a), b) == Ancestor(j, a + b)
  {
    if b > 0 {
      AncestorOfAncestor(j, a, b - 1);
    }
  }

  /** One halving, then `d` more, is `d + 1` halvings. */
  lemma AncestorOfHalf(c: nat, d: nat)
    ensures Ancestor(c / 2, d) == Ancestor(c, d + 1)
  {
    AncestorOfAncestor(c, 1, d);
    assert Ancestor(c, 1) == c / 2;
  }

  /** The next leaf sits in the same node at `level`, or in the next one. */
  lemma {:induction false} AncestorOfSuccessor(n: nat, level: nat)
    ensures Ancestor(n + 1, level) == Ancestor(n, level)
         || Ancestor(n + 1, level) == Ancestor(n, level) + 1
  {
    if level > 0 {
      AncestorOfSuccessor(n, level - 1);
    }
  }

  /** Every leaf of a tree of height `depth` lies below its root, node 0. */
  lemma {:induction false} AncestorAtTop(j: nat, depth: nat)
    requires j < Pow2(depth)
    ensures Ancestor(j, depth) == 0
  {
    AncestorBelowWidth(j, depth, depth);
  }

  lemma {:induction false} AncestorBelowWidth(j: nat, depth: nat, level: nat)
    requires j < Pow2(depth) && level <= depth
    ensures Ancestor(j, level) < Pow2(depth - level)
  {
    if level > 0 {
      AncestorBelowWidth(j, depth, level - 1);
    }
  }

  /* ---------------------------------------------------------------------- */
  /* Node values                                                             */
  /* ---------------------------------------------------------------------- */

  /**
   * A node's value depends only on the leaves below it: two leaf rows that
   * agree on every leaf under node `x` give `x` the same value.
   */
  lemma {:induction false} NodeFrame(hash: PairHash, a: seq<int>, b: seq<int>, zeroValue: int, level: nat, x: nat)
    requires forall k: nat :: Ancestor(k, level) == x ==> Leaf(a, zeroValue, k) == Leaf(b, zeroValue, k)
    ensures Node(hash, a, zeroValue, level, x) == Node(hash, b, zeroValue, level, x)
  {
    if level > 0 {
      NodeFrame(hash, a, b, zeroValue, level - 1, 2 * x);
      NodeFrame(hash, a, b, zeroValue, level - 1, 2 * x + 1);
    }
  }

  /** Appending leaf `n` changes no node except the ancestors of `n`. */
  lemma AppendFrame(hash: PairHash, leafs: seq<int>, v: int, zeroValue: int, level: nat, x: nat)
    requires x != Ancestor(|leafs|, level)
    ensures Node(hash, leafs + [v], zeroValue, level, x) == Node(hash, leafs, zeroValue, level, x)
  {
    forall k: nat | Ancestor(k, level) == x
      ensures Leaf(leafs + [v], zeroValue, k) == Leaf(leafs, zeroValue, k)
    {
    }
    NodeFrame(hash, leafs + [v], leafs, zeroValue, level, x);
  }

  /** Overwriting leaf `j` changes no node except the ancestors of `j`. */
  lemma ReplaceFrame(hash: PairHash, leafs: seq<int>, j: nat, v: int, zeroValue: int, level: nat, x: nat)
    requires j < |leafs|
    requires x != Ancestor(j, level)
    ensures Node(hash, leafs[j := v], zeroValue, level, x) == Node(hash, leafs, zeroValue, level, x)
  {
    forall k: nat | Ancestor(k, level) == x
      ensures Leaf(leafs[j := v], zeroValue, k) == Leaf(leafs, zeroValue, k)
    {
    }
    NodeFrame(hash, leafs[j := v], leafs, zeroValue, level, x);
  }

  /**
   * A node all of whose leaves lie past the end of the leaf row has the
   * padding value of its level.
   */
  lemma {:induction false} PaddingNode(hash: PairHash, leafs: seq<int>, zeroValue: int, level: nat, x: nat)
    requires |leafs| == 0 || Ancestor(|leafs| - 1, level) < x
    ensures Node(hash, leafs, zeroValue, level, x) == ZeroHash(hash, zeroValue, level)
  {
    if level > 0 {
      PaddingNode(hash, leafs, zeroValue, level - 1, 2 * x);
      PaddingNode(hash, leafs, zeroValue, level - 1, 2 * x + 1);
    }
  }

  /** The root of an empty tree is the padding value one level above the top. */
  lemma EmptyRoot(hash: PairHash, zeroValue: int, depth: nat)
    ensures Root(hash, [], zeroValue, depth) == ZeroHash(hash, zeroValue, depth)
  {
    PaddingNode(hash, [], zeroValue, depth, 0);
  }

  /** Combining a node with its true sibling yields the true parent. */
  lemma Climb(hash: PairHash, leafs: seq<int>, zeroValue: int, level: nat, c: nat)
    ensures Combine(hash, c, Node(hash, leafs, zeroValue, level, c), Node(hash, leafs, zeroValue, level, Sibling(c)))
         == Node(hash, leafs, zeroValue, level + 1, c / 2)
  {
  }

  /**
   * `path` lists, from `level` upward, the true values of the siblings of
   * leaf `j`'s ancestors.
   */
  ghost predicate TrueSiblings(hash: PairHash, leafs: seq<int>, zeroValue: int, j: nat, level: nat, path: seq<int>)
    decreases |path|
  {
    |path| == 0 ||
    (path[0] == Node(hash, leafs, zeroValue, level, Sibling(Ancestor(j, level)))
     && TrueSiblings(hash, leafs, zeroValue, j, level + 1, path[1..]))
  }

  /**
   * Folding the value of leaf `j`'s ancestor at `level` with the true
   * siblings of the ancestors above it reproduces the node `|path|` levels up.
   */
  lemma {:induction false} FoldClimbs(hash: PairHash, leafs: seq<int>, zeroValue: int, j: nat, level: nat, path: seq<int>)
    requires TrueSiblings(hash, leafs, zeroValue, j, level, path)
    ensures Fold(hash, Ancestor(j, level), Node(hash, leafs, zeroValue, level, Ancestor(j, level)), path)
         == Node(hash, leafs, zeroValue, level + |path|, Ancestor(j, level + |path|))
    decreases |path|
  {
    if |path| > 0 {
      var c := Ancestor(j, level);
      var cur := Node(hash, leafs, zeroValue, level, c);
      var up := Combine(hash, c, cur, path[0]);
      assert up == Node(hash, leafs, zeroValue, level + 1, Ancestor(j, level + 1)) by {
        Climb(hash, leafs, zeroValue, level, c);
      }
      FoldClimbs(hash, leafs, zeroValue, j, level + 1, path[1..]);
      assert (level + 1) + |path[1..]| == level + |path|;
    }
  }

  /** A path that lists the true siblings level by level satisfies `TrueSiblings`. */
  lemma {:induction false} TrueSiblingsByIndex(hash: PairHash, leafs: seq<int>, zeroValue: int, j: nat, level: nat, path: seq<int>)
    requires forall k | 0 <= k < |path| :: path[k] == Node(hash, leafs, zeroValue, level + k, Sibling(Ancestor(j, level + k)))
    ensures TrueSiblings(hash, leafs, zeroValue, j, level, path)
    decreases |path|
  {
    if |path| > 0 {
      assert path[0] == Node(hash, leafs, zeroValue, level + 0, Sibling(Ancestor(j, level + 0)));
      forall k | 0 <= k < |path[1..]|
        ensures path[1..][k] == Node(hash, leafs, zeroValue, (level + 1) + k, Sibling(Ancestor(j, (level + 1) + k)))
      {
        assert path[1..][k] == path[k + 1];
        assert level + (k + 1) == (level + 1) + k;
      }
      TrueSiblingsByIndex(hash, leafs, zeroValue, j, level + 1, path[1..]);
    }
  }

  /** The level-0 form of `TrueSiblingsByIndex`: entry `i` is the true sibling at level `i`. */
  lemma TrueSiblingsFromLeaf(hash: PairHash, leafs: seq<int>, zeroValue: int, j: nat, path: seq<int>)
    requires forall i | 0 <= i < |path| :: path[i] == Node(hash, leafs, zeroValue, i, Sibling(Ancestor(j, i)))
    ensures TrueSiblings(hash, leafs, zeroValue, j, 0, path)
  {
    forall k | 0 <= k < |path|
      ensures path[k] == Node(hash, leafs, zeroValue, 0 + k, Sibling(Ancestor(j, 0 + k)))
    {
    }
    TrueSiblingsByIndex(hash, leafs, zeroValue, j, 0, path);
  }

  /**
   * Folding leaf `j` with the true siblings of all its ancestors in a tree
   * of height `|path|` yields the root.
   */
  lemma FoldFromLeaf(hash: PairHash, leafs: seq<int>, zeroValue: int, j: nat, path: seq<int>)
    requires j < |leafs| && j < Pow2(|path|)
    requires TrueSiblings(hash, leafs, zeroValue, j, 0, path)
    ensures Fold(hash, j, leafs[j], path) == Root(hash, leafs, zeroValue, |path|)
  {
    FoldClimbs(hash, leafs, zeroValue, j, 0, path);
    AncestorAtTop(j, |path|);
  }
}

=== FILE: scenario.dfy ===
/**
 * The script the tree module runs when loaded: a tree of depth 4 over
 * padding 0, two inserts, then two updates, ending with leaves `[500, 42]`.
 */
module Scenario {
  import opened Field
  import opened Reference
  import opened MerkleTree
  import opened History

  /** `insert(100)`, `insert(2000)`, `update(0, 500)`, `update(1, 42)`. */
  const Script: seq<Op> := [InsertOp(100), InsertOp(2000), UpdateOp(0, 500), UpdateOp(1, 42)]

  /** The script is legal on an empty tree of depth 4, inserts first, and replays to `[500, 42]`. */
  lemma ScriptReplay()
    ensures Legal(0, Pow2(4), Script) && InsertsFirst(Script)
    ensures Replay([], Script) == [500, 42]
  {
    var ops := Script;
    assert ops[1..] == [InsertOp(2000), UpdateOp(0, 500), UpdateOp(1, 42)];
    assert ops[1..][1..] == [UpdateOp(0, 500), UpdateOp(1, 42)];
    assert ops[1..][1..][1..] == [UpdateOp(1, 42)];
    assert ops[1..][1..][1..][1..] == [];
  }

  /**
   * Two leaves under a tree of depth 4: the root hashes the pair, then pairs
   * the result with the padding value of each level above.
   */
  lemma TwoLeavesAtDepthFour(hash: PairHash, a: int, b: int, zeroValue: int)
    ensures Root(hash, [a, b], zeroValue, 4)
         == hash(hash(hash(hash(a, b),
                           ZeroHash(hash, zeroValue, 1)),
                      ZeroHash(hash, zeroValue, 2)),
                 ZeroHash(hash, zeroValue, 3))
  {
    var leafs := [a, b];
    assert Ancestor(1, 1) == 0 && Ancestor(1, 2) == 0 && Ancestor(1, 3) == 0;
    PaddingNode(hash, leafs, zeroValue, 1, 1);
    PaddingNode(hash, leafs, zeroValue, 2, 1);
    PaddingNode(hash, leafs, zeroValue, 3, 1);
    assert Node(hash, leafs, zeroValue, 0, 0) == a && Node(hash, leafs, zeroValue, 0, 1) == b;
    assert Node(hash, leafs, zeroValue, 1, 0) == hash(a, b);
    assert Node(hash, leafs, zeroValue, 2, 0)
        == hash(Node(hash, leafs, zeroValue, 1, 0), Node(hash, leafs, zeroValue, 1, 1));
    assert Node(hash, leafs, zeroValue, 3, 0)
        == hash(Node(hash, leafs, zeroValue, 2, 0), Node(hash, leafs, zeroValue, 2, 1));
    assert Root(hash, leafs, zeroValue, 4)
        == hash(Node(hash, leafs, zeroValue, 3, 0), Node(hash, leafs, zeroValue, 3, 1));
  }

  /**
   * Whatever the pair hash, so in particular for `hashLeftRight` as written
   * (`MimcPairAsWritten`), the script never throws, leaves `[500, 42]`, and
   * ends at the root recomputed bottom-up from those two leaves and the
   * padding table.
   */
  lemma ScriptEndsAtReferenceRoot(hash: PairHash)
    ensures Create(hash, 4, 0).Ok?
    ensures var r := Run(hash, Create(hash, 4, 0).value, Script);
      && r.Ok?
      && r.value.leafs == [500, 42]
      && r.value.root == Root(hash, [500, 42], 0, 4)
      && r.value.root
         == hash(hash(hash(hash(500, 42), ZeroHash(hash, 0, 1)), ZeroHash(hash, 0, 2)), ZeroHash(hash, 0, 3))
  {
    ScriptReplay();
    CreateInsertUpdate(hash, 4, 0, Script);
    TwoLeavesAtDepthFour(hash, 500, 42, 0);
  }
}
